=== FILE: README.md ===
# gpio: a Dafny model of the pin and chip logic

This project models the core of the C++ GPIO library `gpio` ("gpio++"). The
library drives general-purpose I/O pins through three back-ends:

- `generic` and `gpiod` use the Linux GPIO character device;
- `pigpio` uses the pigpio C library.

The model covers:

- the pin base class: mode bookkeeping, the PWM period, pulse and duty-cycle arithmetic;
- each back-end's mode state machine: flag translation, detach, the read/write guards, the PWM tick split and the PWM worker's loop body;
- pigpio's frequency and duty-range conversions;
- the flag and mode algebra;
- the callback registry `call_chain`, in both of its variants;
- the chip: id validation, pin enumeration, bounds-checked pin access, `type_id`, teardown order;
- run-time selection of a back-end from a `type[:param]` string.

How it is modelled:

- Pins and chips are immutable records. Every mutating member becomes a pure function. It returns the pin afterwards, whether it threw (`Status`), and the calls it made on the kernel or library, in order.
- An exception does not roll back what the member already did. A rejected `mode` request, for example, leaves the pin detached, and the model keeps that.
- Whatever the operating system or pigpio answers is a parameter. This covers ioctl success or error text, line info, return codes, and what `dlopen`/`dlsym` find.
- Flags are `bv32`, as the C++ `int` behind the enum.
- The PWM worker is a `Stopped | Running` flag. Its loop body is a function from ticks and deadline to the levels written.

Where the header files and the `.cpp` files disagree, each file is modelled as written:

- `generic/pin.cpp` defines `pulse(nsec)`, while `generic/pin.hpp` declares `set(nsec)`. The model follows the `.cpp`, so `duty_cycle` reaches the override and updates the ticks.
- `gpiod/gpiod_pin.cpp` reports `pwm` while its thread is joinable, while the header tests a `pwm_` future that the `.cpp` never assigns. Both are modelled (`GpiodPin.ReportedMode`, `GpiodPin.HeaderMode`).

Where the code differs from a plain reading of the library's documentation, the code is followed:

- After construction a character-device pin is never in mode `detached`. `update()` always sets `digital_in` or `digital_out` from the kernel's line info, even when the line is closed. "Detached" means only that the line descriptor is closed.
- The `generic` pin's `set`/`state` do not check for a running PWM worker. The `gpiod` pin's do.
- The PWM loop tests `ticks != 0`, not `ticks > 0`. A negative low phase (a period shortened below the pulse) still writes `off` and moves the deadline back.
- The `generic` pin validates the flags before the mode. The `gpiod` pin checks the mode first, then the flags that mode allows.
- The `pigpio` pin sets the pin direction before it rejects an invalid flag.

## Model

| member | source | states |
|---|---|---|
| Decimal.NatToString | util/chip_base.cpp:45 | the decimal spelling `std::to_string` gives a pin number: digits only, a leading zero only for 0 |
| Decimal.ParseNatToString | util/chip_base.cpp:45 | reading the digits back yields the number, so the spelling loses nothing |
| Decimal.IntToString | generic/pin.cpp:60 | a negative value is spelled with a leading minus, a non-negative one with digits only |
| Flags.Or | include/gpio_types.hpp:59-60 | `|` keeps every bit of both operands (with `OrAddsNoOtherBit`: and no other bit) |
| Flags.OrAddsNoOtherBit | include/gpio++/types.hpp:61-63 | `x | y` holds no bit outside `x` and `y` |
| Flags.And | include/gpio_types.hpp:62-63 | `&` holds exactly the bits both operands share |
| Flags.Not | include/gpio++/types.hpp:75-76 | `~` flips every bit: disjoint from its operand, and together they cover all 32 bits |
| Flags.OrAssign | include/gpio++/types.hpp:69-70 | `|=` assigns and returns the OR |
| Flags.AndAssign | include/gpio++/types.hpp:72-73 | `&=` assigns and returns the AND |
| Flags.ClearLeavesNoBit | include/gpio++/types.hpp:75-76 | `(f & ~g) & g == 0`, and clearing `g` keeps every other bit of `f` |
| Flags.ConstantsAreDisjointBits | include/gpio_types.hpp:45-57 | each of 0x1, 0x10, 0x20, 0x100, 0x200 is one bit, and no two share a bit |
| Modes.FindIsMembership | util/pin_base.cpp:28-33 | the `std::count`-based `find` is nonzero exactly for members of the table |
| Modes.ClassificationTables | include/gpio_types.hpp:37-41 | every attached mode is digital xor analog, and input xor output; `pwm` is digital output only; `detached` is in no table |
| Modes.NPos | include/gpio_types.hpp:23 | `npos` is the largest `size_t`, 2^64 - 1 |
| PinBase.New | util/pin_base.hpp:83-93 | a fresh pin is detached with no flags, not in use, period 100 000 000 ns, pulse 0, so 0 <= pulse <= period |
| PinBase.SetMode | util/pin_base.hpp:37-38 | the three-argument `mode` sets mode and flags and nothing else |
| PinBase.ModeOverloadsAgree | util/pin_base.hpp:37-44 | the shorter overloads default flags to none and state to off, and the state never matters |
| PinBase.ClassificationIsMembership | util/pin_base.cpp:37-41 | `digital`/`analog`/`input`/`output` are exactly membership of the mode in the four tables |
| PinBase.QueriesAfterSetMode | util/pin_base.hpp:52-58 | after `mode(m, f)`, `is(g)` holds iff `f` and `g` share a bit; `supports` is unchanged |
| PinBase.ClampPeriod | util/pin_base.cpp:44-48 | `max(p, 1ns)`: at least 1 and at least `p`, and one of the two |
| PinBase.SetPeriod | util/pin_base.cpp:44-48 | the stored period is clamped to at least 1 ns and the pulse is untouched |
| PinBase.ClampPulse | util/pin_base.cpp:51-55 | the clamped pulse is the point of [0, period] nearest the request |
| PinBase.SetPulse | util/pin_base.cpp:51-55 | the stored pulse is in [0, period]: the request itself when it lies there, else 0 or the period |
| PinBase.ShorterPeriodLeavesLongerPulse | util/pin_base.cpp:44-55 | a pulse of 1000 ns survives a period change to 10 ns, so the pulse can exceed the period |
| PinBase.ClampPercent | util/pin_base.cpp:60 | the duty cycle is clamped into [0, 100] and left alone inside it |
| PinBase.Trunc | util/pin_base.cpp:61 | `static_cast` to an integer truncates toward zero |
| PinBase.DutyPulse | util/pin_base.cpp:58-62 | the pulse asked for is `period * pc / 100` (pc clamped to [0, 100]) rounded half up: n <= x + 0.5 < n + 1, so it lies in [0, period] |
| PinBase.SetDutyCycle | util/pin_base.cpp:58-62 | `duty_cycle(pc)` sets the pulse to `period * pc / 100` (pc clamped to [0, 100]) rounded half up, so 0 <= pulse <= period, 0 % gives 0 and 100 % the full period; nothing else changes |
| PinBase.DutyCycle | util/pin_base.cpp:65-68 | `100 * pulse / period` never divides by zero; it lies in [0, 100] while the pulse is within the period, is 0 for no pulse and 100 for a full one |
| PinBase.QuarterDutyCycleExample | util/pin_base.cpp:58-62 | period 1 000 000 ns and 25 % give a pulse of 250 000 ns |
| PinBase.DutyCycleRoundTrip | util/pin_base.cpp:58-68 | reading the duty cycle back right after setting `pc` is within `50 / period` of `pc`: half a tick |
| PinIface.New | include/gpio/pin.hpp:71-77 | a fresh pin has its type and position, mode detached, no flags, not in use |
| PinIface.TypeId | include/gpio/pin.hpp:32 | `type_id()` is the type, ".pin:", then decimal digits |
| PinIface.TypeIdNamesPosition | include/gpio/pin.hpp:32 | the digits read back as the position, so two pins of one type with equal ids sit at one position |
| PinIface.SetMode | include/gpio/pin.hpp:81-82 | the three-argument `mode` sets mode and flags only |
| PinIface.ModeOverloadsAgree | include/gpio/pin.hpp:84-91 | the overloads default flags to 0 and value to 0, and the value is ignored |
| PinIface.QueriesAreMembership | include/gpio/pin.hpp:106-112 | the classification queries are membership of the four mode tables; a fresh pin is in no table and has no flag |
| CallChain.NCid | include/gpio++/types.hpp:118 | `ncid` is the largest `unsigned`, 2^32 - 1 |
| CallChain.ToMapKeys | include/gpio++/types.hpp:156 | the map view of the entries has exactly their ids as keys |
| CallChain.Emplace | include/gpio++/types.hpp:137 | `emplace` keeps the ids sorted and adds `id` to them |
| CallChain.EmplaceToMap | include/gpio++/types.hpp:137 | `emplace` adds `id -> fn` to the map, or changes nothing when `id` is taken |
| CallChain.Erase | include/gpio++/types.hpp:140 | `erase` reports whether `id` was present and removes exactly that id |
| CallChain.EraseToMap | include/gpio++/types.hpp:140 | the map after `erase(id)` is the map before it without `id` |
| CallChain.GetCid | include/gpio++/types.hpp:151-155 | `get_cid` returns the shared counter and advances it by one modulo 2^32 |
| CallChain.Add | include/gpio++/types.hpp:133-139 | `add` returns the counter value and registers `fn` under it unless that id is taken |
| CallChain.Remove | include/gpio++/types.hpp:140 | `remove(id)` is true iff `id` was registered; afterwards it is absent and every other entry is unchanged |
| CallChain.DispatchOrder | include/gpio++/types.hpp:143-146 | dispatch visits every registered id once, in strictly ascending order |
| CallChain.Dispatch | include/gpio++/types.hpp:143-146 | dispatch calls each registered callback exactly once, in ascending id order |
| CallChain.AddAllIds | include/gpio++/types.hpp:133-139 | the i-th of consecutive `add`s receives seed + i modulo 2^32 |
| CallChain.IdsDistinctUntilWrap | include/gpio++/types.hpp:151-155 | up to 2^32 consecutive `add`s hand out pairwise distinct ids |
| CallChain.TwoAddsKeepBoth | include/gpio++/types.hpp:133-155 | two `add`s on an empty chain keep both callbacks under different ids |
| LocalSeedChain.GetLocalCid | include/gpio++/call_chain.hpp:50-54 | with a non-static seed, `get_cid` always returns 0 |
| LocalSeedChain.Add | include/gpio++/call_chain.hpp:34-39 | `add` returns 0 and registers `fn` only when 0 is free; otherwise the chain is unchanged |
| LocalSeedChain.SecondAddIsDropped | include/gpio++/call_chain.hpp:34-54 | after two `add`s on an empty chain only the first callback is registered |
| SoftPwm.Split | generic/pin.cpp:133-146 | the ticks are high = pulse and low = period - pulse: they sum to the period, and low is negative iff pulse > period |
| SoftPwm.Pass | generic/pin.cpp:238-259 | one pass writes on iff high != 0, off iff low != 0 (unless stopped after the high phase), on before off, and advances the deadline by the phases run |
| SoftPwm.Run | generic/pin.cpp:238-259 | `n` iterations of the worker loop with the stop flag never seen: they never exit; this is the iterate that RunDeadline, PeriodicDeadline and SquareWave describe |
| SoftPwm.RunDeadline | generic/pin.cpp:245-256 | n passes advance the absolute deadline by exactly n * (high + low) |
| SoftPwm.PeriodicDeadline | generic/pin.cpp:133-146 | with the stored ticks, n passes take n periods |
| SoftPwm.SquareWave | generic/pin.cpp:238-259 | with both phases nonzero the line sees on, off, on, off, ... |
| SoftPwm.ConstantLevel | generic/pin.cpp:240-257 | a zero high phase never writes on; a zero low phase never writes off |
| SoftPwm.NegativeLowPhase | generic/pin.cpp:250-256 | with period 10 and pulse 1000 the low phase is -990: off is still written, and the deadline falls back to 10 |
| LineIo.Convert | generic/pin.cpp:46-57 | the translation yields only active-low, open-drain and open-source request bits |
| LineIo.ConvertLeftover | gpiod/gpiod_pin.cpp:45-63 | what the loop leaves is exactly the bits outside every allowed flag |
| LineIo.ConvertBits | gpiod/gpiod_pin.cpp:48-58 | a request bit is produced iff its flag is allowed and was asked for |
| LineIo.ConvertOutputFlags | generic/pin.cpp:47-61 | against the three output flags, the request is accepted iff it has no other bit, and each request bit matches its flag |
| LineIo.Update | generic/pin.cpp:149-170 | `update()` takes name, direction, the three flags and the in-use bit from the line info; no pull flags; period and pulse untouched |
| GenericPin.Refresh | generic/pin.cpp:149-159 | one line-info query; a failure throws "Cannot get pin info - ..." and changes nothing |
| GenericPin.New | generic/pin.cpp:29-36 | a new pin has modes {in, out, pwm}, valid flags AL/OD/OS, is closed, at its position, and reports `digital_out` when the line info says output and `digital_in` otherwise; a failed line-info query throws "Cannot get pin info - " + the kernel's text |
| GenericPin.Detach | generic/pin.cpp:85-94 | a closed pin is untouched; an open one stops a running worker, closes, and re-reads the line info, and is closed and disarmed afterwards |
| GenericPin.DetachIdempotent | generic/pin.cpp:85-94 | a second `detach()` does nothing, whatever the kernel would answer |
| GenericPin.Attach | generic/pin.cpp:173-210 | the line request comes first and is the only request; the read is armed only for input; the worker starts only for pwm |
| GenericPin.SetMode | generic/pin.cpp:42-82 | success means an accepted mode and flag set, an open line, the request made, and the worker running iff the mode is pwm; a leftover flag throws `invalid_argument` "Invalid flag(s): <leftover>", an unswitchable mode "Invalid mode: <mode>", after a successful detach; either way the pin is left detached with no request |
| GenericPin.ModeClosesBeforeRequest | generic/pin.cpp:44-82 | `mode()` closes the old line before it makes any new request |
| GenericPin.ModeTakesEffect | generic/pin.cpp:42-82 | with every call succeeding and honest line info, the pin then reports the requested mode and exactly the requested flags |
| GenericPin.SetState | generic/pin.cpp:97-112 | a closed pin throws `logic_error` without a write; otherwise one write, and a failure throws "Cannot set pin state - ..." |
| GenericPin.Reset | util/pin_base.hpp:68 | `reset()` writes off, with the same guard as `set` |
| GenericPin.GetState | generic/pin.cpp:115-130 | a closed pin throws `logic_error`; otherwise the value read, or "Cannot get pin state - ..." |
| GenericPin.WritesDuringPwm | generic/pin.cpp:97-130 | this back-end lets `set` and `state` reach the line while the worker runs |
| GenericPin.SetPeriod | generic/pin.cpp:133-138 | the clamped period is stored and the ticks still sum to it with high = pulse |
| GenericPin.SetPulse | generic/pin.cpp:141-146 | the base pulse setter, then ticks that are both non-negative and sum to the period |
| GenericPin.SetDutyCycle | util/pin_base.cpp:58-62 | `duty_cycle` goes through the overriding `pulse`, so the ticks follow the new pulse |
| GenericPin.DutyCycleDrivesWorker | generic/pin.cpp:238-259 | after a duty-cycle change each pass takes one period; 0 % never writes on, 100 % never writes off |
| GenericPin.OnEvent | generic/pin.cpp:213-227 | a read error stops re-arming and calls nothing; otherwise a rising edge is on, anything else off, and the read is re-armed |
| GpiodPin.HeaderModeNeverPwm | gpiod/gpiod_pin.hpp:36-37 | the header's `mode()` never reports pwm, and differs from the `.cpp`'s exactly while the thread runs |
| GpiodPin.Refresh | gpiod/gpiod_pin.cpp:190-214 | one line-info query; a failure throws "Error getting pin info - ..." and changes nothing |
| GpiodPin.New | gpiod/gpiod_pin.hpp:65-66 | a new pin is closed, not running, at its position, with ticks summing to the period |
| GpiodPin.StopPwm | gpiod/gpiod_pin.cpp:270-277 | the thread is joined only when it runs, and is stopped afterwards |
| GpiodPin.StopPwmIdempotent | gpiod/gpiod_pin.cpp:270-277 | stopping twice is stopping once |
| GpiodPin.Detach | gpiod/gpiod_pin.cpp:122-131 | only an open line is touched: stop the thread, close, re-read the line info |
| GpiodPin.DetachIdempotent | gpiod/gpiod_pin.cpp:122-131 | a second `detach()` does nothing |
| GpiodPin.Translate | gpiod/gpiod_pin.cpp:78-97 | accepted iff the mode is in/out/pwm and every flag is one that mode allows; the direction bit matches the mode; an unknown mode is reported before any flag |
| GpiodPin.InputRefusesDriveFlags | gpiod/gpiod_pin.cpp:80-89 | input accepts active-low but refuses open drain and open source, which output and pwm accept |
| GpiodPin.Attach | gpiod/gpiod_pin.cpp:99-118 | one handle request with the flags and initial state comes first; the thread is started only for pwm on success, as the last call |
| GpiodPin.SetMode | gpiod/gpiod_pin.cpp:71-119 | success means a translated request was made and the line is open; the thread runs iff the mode is pwm; a rejected mode or flag throws `invalid_argument` after detaching |
| GpiodPin.ModeTakesEffect | gpiod/gpiod_pin.cpp:71-119 | with every call succeeding and honest line info, an output or pwm request is reported back as asked |
| GpiodPin.Guard | gpiod/gpiod_pin.cpp:217-230 | access is allowed iff the line is open and no PWM thread runs; detached is reported first |
| GpiodPin.SetState | gpiod/gpiod_pin.cpp:134-151 | a guarded pin throws without a write; otherwise one write, and a failure throws "Error setting pin value - ..." |
| GpiodPin.Reset | util/pin_base.hpp:68 | `reset()` writes off, with the same guards as `set` |
| GpiodPin.GetState | gpiod/gpiod_pin.cpp:154-171 | a guarded pin throws; otherwise the value read, or "Error getting pin value - ..." |
| GpiodPin.NoLineAccessDuringPwm | gpiod/gpiod_pin.cpp:225-230 | while the thread runs, `set` and `state` throw "PWM in-progress" and touch nothing |
| GpiodPin.SetPeriod | gpiod/gpiod_pin.cpp:174-179 | the clamped period is stored and the ticks sum to it with high = pulse |
| GpiodPin.SetPulse | gpiod/gpiod_pin.cpp:182-187 | the base pulse setter, then non-negative ticks summing to the period |
| PigpioPin.Detach | pigpio/pin.cpp:103-115 | the pipe is closed if open; the notification handle is closed only when >= 0 and then set to -1; a close failure keeps the handle |
| PigpioPin.DetachIdempotent | pigpio/pin.cpp:103-115 | after a successful `detach()` another one calls nothing |
| PigpioPin.Attach | pigpio/pin.cpp:167-188 | open a notification handle, its pipe "/dev/pigpio" + handle, and start notifications; a negative handle throws `invalid_argument` |
| PigpioPin.SetMode | pigpio/pin.cpp:52-100 | success means mode in/out, a single flag (none, pull-up or pull-down) recorded, and notifications armed iff the mode is in; an invalid mode or flag throws and leaves mode and flags as they were |
| PigpioPin.Direction | pigpio/pin.cpp:56-74 | the direction call comes right after detach; a failed call throws `runtime_error` |
| PigpioPin.Pull | pigpio/pin.cpp:77-95 | a pull call names the resistor asked for; any other nonzero flag, including both at once, throws "Invalid flag" without a call |
| PigpioPin.Finish | pigpio/pin.cpp:98-99 | mode and flag are recorded; only `in` attaches notifications |
| PigpioPin.DirectionSetBeforeFlagCheck | pigpio/pin.cpp:56-95 | `mode(out, pull_up|pull_down)` sets the direction and then throws |
| PigpioPin.SetModeState | pigpio/pin.cpp:45-49 | the three-argument `mode` writes the state only after a successful `out` |
| PigpioPin.Set | pigpio/pin.cpp:118-124 | one write; a negative answer throws "Cannot set pin state" |
| PigpioPin.GetState | pigpio/pin.cpp:127-135 | on iff the read is nonzero; a negative read throws |
| PigpioPin.GetPeriod | pigpio/pin.cpp:207-214 | the period read back is 10^9 / freq, rounded down; a negative frequency throws and zero divides by zero |
| PigpioPin.GetPulse | pigpio/pin.cpp:217-227 | only a nonzero pulse is recomputed, as period * cycle / range |
| PigpioPin.FrequencyFor | pigpio/pin.cpp:142 | the frequency asked for is the whole number of periods in one second |
| PigpioPin.SetPeriod | pigpio/pin.cpp:138-150 | asks for the frequency of the clamped period; succeeds iff the set and the frequency read succeed and (for a nonzero pulse) the duty read does; each failure carries its own error; on success the period is 10^9 / freq and a nonzero pulse is recomputed from the new period and the reported duty step |
| PigpioPin.ReloadedPeriodNotShorter | pigpio/pin.cpp:142-148 | when the asked-for frequency is granted, the period read back is at least the one requested, and equal to it when it divides a second |
| PigpioPin.CycleFor | pigpio/pin.cpp:157 | the duty step is `pulse * range / period` rounded down, within [0, range] |
| PigpioPin.SetPulse | pigpio/pin.cpp:153-164 | asks for the duty step of the clamped pulse (a zero period divides by zero); succeeds iff the set succeeds and, for a nonzero pulse, the duty read does; the failures give "Cannot set PWM duty cycle" and "Cannot get PWM duty cycle"; a zero pulse reads back as 0 and a nonzero one as period * step / range rounded down; the period is kept |
| PigpioPin.PulseRoundTrip | pigpio/pin.cpp:153-164 | when pigpio reports the step it was given, the pulse read back is never above the request and short of it by less than one step (period / range) plus 1 ns |
| PigpioPin.New | pigpio/pin.cpp:27-39 | the constructor advertises the modes in and out and the flags pull-up and pull-down, sets the PWM range (failing with "Cannot set PWM range"), then reads the period (a negative frequency fails with "Cannot get PWM frequency", zero divides by zero); the pin starts detached with no handle |
| PigpioPin.NewSupportsWhatModeAccepts | pigpio/pin.cpp:29-30 | a new pin supports a mode iff it is not detached, and a flag iff it is pull-up or pull-down |
| ChipBase.TypeId | util/chip_base.cpp:36-39 | the type alone when the id is empty, else type, ':', id |
| ChipBase.PinAt | util/chip_base.cpp:23-33 | `pin(n)` is the stored pin iff n < pin count, otherwise `out_of_range`; const and non-const alike |
| ChipBase.RangeErrorNamesPin | util/chip_base.cpp:42-47 | the range error begins with `type_id() + ": Invalid pin # "` and the rest reads back as n |
| ChipBase.RangeErrorsDistinguishPins | util/chip_base.cpp:42-47 | different pin numbers give different range errors |
| ChipIface.PinAt | include/gpio_chip.hpp:33-44 | `pin(n)` is the stored pin iff n < `pin_count()`, otherwise `out_of_range` |
| ChipIface.RangeErrorIsDecimal | include/gpio_chip.hpp:56-61 | the message is "Invalid pin # " followed by exactly the decimal spelling of n |
| ChipOpen.FirstNonDigit | generic/chip.cpp:31 | `find_first_not_of` finds nothing iff every character is a digit, and otherwise the first non-digit |
| ChipOpen.ValidIdIsShortDecimal | generic/chip.cpp:31-35 | an id is accepted iff it has one to three characters, all of them '0'..'9' |
| ChipOpen.NumberedIds | gpiod/gpiod_chip.cpp:26-30 | of the plainly spelled numbers, exactly 0..999 are accepted ids |
| ChipOpen.BuildPins | generic/chip.cpp:60-61 | pins 0..k-1 are made in order; success iff every one is made, and the first failure is the one reported |
| ChipOpen.Open | generic/chip.cpp:28-62 | a bad id gives `invalid_argument`; an open failure gives `runtime_error` naming `/dev/gpiochip<id>`, a chip-info failure one with the kernel's text; a chip exists only after every step, with the id, label and one pin per line |
| ChipOpen.OpenGeneric | generic/chip.cpp:28-62 | a `chip` chip's pin n is at position n, closed, and well formed |
| ChipOpen.OpenGpiod | gpiod/gpiod_chip.cpp:23-57 | a `gpiod` chip's pin n is at position n, closed, and well formed |
| ChipOpen.OpenedChipTypeId | generic/chip.cpp:29-37 | an opened `chip` is named "chip:" + its id |
| ChipOpen.Destroy | generic/chip.cpp:65-71 | every pin's detach comes before the chip descriptor closes, which comes last |
| ChipOpen.LinesCloseBeforeChip | generic/chip.cpp:65-71 | each attached line is closed and its info re-read while the chip is still open; detached lines issue nothing |
| ChipOpen.GpiodLinesCloseBeforeChip | gpiod/gpiod_chip.cpp:59-65 | the same for a `gpiod` chip |
| ChipOpen.DeleteChip | gpiod/gpiod_chip.cpp:73 | `delete_chip(nullptr)` does nothing; a chip is torn down, its descriptor last |
| Library.FindColon | lib/gpio.cpp:36 | `find(':')` finds nothing iff there is no colon, and otherwise the first one |
| Library.SplitType | lib/gpio.cpp:35-41 | with no colon the parameter is empty; otherwise type + ':' + param is the input and the type has no colon |
| Library.SplitTypeRecovers | lib/gpio.cpp:35-41 | a colon-free type and any parameter, colons included, come back from `type:param` |
| Library.TypeIdSelectsChip | lib/gpio.cpp:35-41 | a chip's `type_id()` splits back into its type and id |
| Library.GetChip | lib/gpio.cpp:33-58 | a chip is returned iff the library loads, `create_chip` is found, does not throw and returns non-null; loader failures are `invalid_argument` with the loader's text, a throwing `create_chip` passes its exception on, and a null chip gives "<lib>: create_chip() returned nullptr"; after a successful load the library stays loaded |
| Library.NullChipStrandsLibrary | lib/gpio.cpp:53-56 | a null chip leaves the library loaded after `get_chip` has thrown |
| Library.ThrowingCreateStrandsLibrary | lib/gpio.cpp:53 | a `create_chip` that throws leaves the library loaded too |
| Library.CreateGpiod | gpiod/gpiod_chip.cpp:71-72 | the gpiod `create_chip` never returns null: it returns the chip or passes on the constructor's exception, the invalid-id one for a malformed id |
| Library.GpiodBadIdStrandsLibrary | lib/gpio.cpp:53 | selecting `gpiod:<id>` with a malformed id throws the invalid-id error and leaves the library loaded |
| Library.GetChipReleasing | lib/gpio.cpp:33-58 | the same results (a throwing `create_chip` included), but no failure leaves the library loaded |
| Library.ReleasingBalancesLoads | lib/gpio.cpp:44-56 | after a load, the last call is an unload iff `get_chip` failed |
| Library.Delete | lib/gpio.cpp:18-30 | with a handle: find `delete_chip`, call it if found, unload, drop the handle; without one: nothing |
| Library.DeleteIdempotent | lib/gpio.cpp:18-30 | a second deletion does nothing |
| Library.ObtainedChipIsReleased | lib/gpio.cpp:18-58 | a chip from `get_chip` is deleted (when `delete_chip` exists) and its library unloaded by its deleter |

## Left out

- Threads, timing and asynchronous reads are not modelled. The PWM worker is a flag plus its loop body over an abstract deadline, and the stop flag's reads are parameters. Races between the worker and the setters are not modelled.
- Kernel ioctl numbers, request-bit and line-flag values are kernel constants. They appear as symbols (`ReqFlag`, `LineInfo` booleans).
- `dlopen`, `dlsym` and `dlclose` are parameters and call records. The loader's own behaviour is not modelled.
- The `type_id(this)` prefix of the back-end pins' and chips' exception messages comes from a helper header that is not part of this model. Messages start after that prefix, and the gpiod `": "` separator is dropped with it.
- The duty cycle is a `real`. IEEE double rounding in `period * pc / 100.0 + 0.5` and in `100.0 * pulse / period` is not modelled.
- `nsec` is a 64-bit count and `pos` a `size_t`. Their overflow is not modelled, and neither is the `1 << pos_` overflow in pigpio's notification mask.
- pigpio's `sched_read` (the level bit of the report) and the posix stream-descriptor wrappers are not modelled.
- GenericPin.Detach, GpiodPin.Detach and PigpioPin.Detach: a failing `fd_.close()` is not modelled. The close in `detach()` (generic/pin.cpp:91, gpiod/gpiod_pin.cpp:128, pigpio/pin.cpp:105) is a call that always succeeds here. In the source, a throw there skips the following `update()` or `gpioNotifyClose`.
- The gpiod pin's `duty_cycle` is not modelled separately. It is the base one, and `gpiod_pin.cpp` overrides `set(nsec)`, a pulse setter the base class in this version does not declare.
- Exceptions thrown from destructors are not modelled, and neither is the order in which `pins_.clear()` destroys the pins. `ChipOpen.Destroy` detaches them in index order.
- PinBase.SetPulse: requires a period of at least one. Every pin keeps that from construction on (util/pin_base.hpp:93 with util/pin_base.cpp:47).
- PinBase.SetDutyCycle: requires a period of at least one, for the same reason.
- GenericPin.SetMode: requires the pin's invariant (ticks split from the period and pulse, capabilities as constructed). Every constructed pin satisfies it, and every operation keeps it.
- GpiodPin.SetMode: requires the pin's invariant, for the same reason.
- PigpioPin.SetPulse: requires a positive PWM range. The range is the library constant `PI_MAX_DUTYCYCLE_RANGE`.
- PigpioPin.GetPulse: requires a positive PWM range, as above.
- PigpioPin.Set: the base-class `set(state)` call after the write is not modelled, because pigpio's own pin base header is not part of this model.

## Findings

| source | as written | input that shows it | evidently intended | confidence | as-written member | corrected member |
|---|---|---|---|---|---|---|
| include/gpio++/call_chain.hpp:50-54 | `get_cid` keeps its counter in a local, non-static variable, so every `add` gets id 0 and `emplace` drops every callback after the first | two `add(f)`, `add(g)` on an empty chain: both return 0 and only `f` is registered | a static counter, as in include/gpio++/types.hpp:151-155, so ids are distinct and both callbacks stay | not executed | LocalSeedChain.SecondAddIsDropped | CallChain.TwoAddsKeepBoth |
| lib/gpio.cpp:51-56 | when `create_chip` is missing, throws or returns null, `get_chip` throws without `dlclose`: a null `unique_chip` never runs its deleter, and a throwing `create_chip` never builds one | a library whose `create_chip` returns nullptr; `gpiod:abc`, whose chip constructor throws on the id | every failure after a successful `dlopen` unloads the library | not executed | Library.NullChipStrandsLibrary | Library.GetChipReleasing |

=== FILE: call_chain.dfy ===
/** The callback registry `call_chain` of the newer type header: a
    `std::map` from call id to callback, ids drawn from a counter that is
    `static` and therefore shared by every chain of the same callback type.

    A `std::map` keeps its entries sorted by key, so it is modelled as a
    list of entries with strictly increasing ids; `ToMap` is the abstract
    view every operation is specified against.
 */
module CallChain {
  import opened Wrappers

  const CidModulus: int := 0x1_0000_0000

  /** `cid` is `unsigned`. */
  newtype Cid = n: int | 0 <= n < CidModulus

  /** `ncid = static_cast<cid>(-1)`: the largest `cid`. */
  function NCid(): (r: Cid)
    ensures r as int == CidModulus - 1
  {
    ((-1) % CidModulus) as Cid
  }

  type Entries<F> = seq<(Cid, F)>

  /** The ids of a list of entries. */
  function Keys<F>(e: Entries<F>): set<Cid> {
    if e == [] then {} else {e[0].0} + Keys(e[1..])
  }

  /** Strictly increasing ids: each entry's id is below every later one. */
  ghost predicate Sorted<F>(e: Entries<F>) {
    e == [] || ((forall k :: k in Keys(e[1..]) ==> e[0].0 < k) && Sorted(e[1..]))
  }

  /** The map view: each entry's id maps to its callback. */
  function ToMap<F>(e: Entries<F>): map<Cid, F> {
    if e == [] then map[] else ToMap(e[1..])[e[0].0 := e[0].1]
  }

  lemma {:induction false} ToMapKeys<F>(e: Entries<F>)
    ensures ToMap(e).Keys == Keys(e)
  {
    if e != [] {
      ToMapKeys(e[1..]);
    }
  }

  lemma {:induction false} KeysAreIds<F>(e: Entries<F>)
    ensures forall k :: k in Keys(e) <==> exists i :: 0 <= i < |e| && e[i].0 == k
  {
    if e != [] {
      KeysAreIds(e[1..]);
      forall k | k in Keys(e) ensures exists i :: 0 <= i < |e| && e[i].0 == k {
        if k != e[0].0 {
          assert k in Keys(e[1..]);
          var j :| 0 <= j < |e[1..]| && e[1..][j].0 == k;
          assert e[j + 1].0 == k;
        }
      }
      forall k, i | 0 <= i < |e| && e[i].0 == k ensures k in Keys(e) {
        if i > 0 { assert e[1..][i - 1].0 == k; }
      }
    }
  }

  /** A sorted list has strictly increasing ids at every pair of positions. */
  lemma {:induction false} SortedIncreasing<F>(e: Entries<F>)
    requires Sorted(e)
    ensures forall i, j :: 0 <= i < j < |e| ==> e[i].0 < e[j].0
  {
    if e != [] {
      SortedIncreasing(e[1..]);
      KeysAreIds(e[1..]);
      forall i, j | 0 <= i < j < |e| ensures e[i].0 < e[j].0 {
        assert e[j].0 == e[1..][j - 1].0;
        assert e[j].0 in Keys(e[1..]);
        if i > 0 { assert e[i].0 == e[1..][i - 1].0; }
      }
    }
  }

  lemma {:induction false} ToMapOfSorted<F>(e: Entries<F>)
    requires Sorted(e)
    ensures forall i :: 0 <= i < |e| ==> e[i].0 in ToMap(e) && ToMap(e)[e[i].0] == e[i].1
  {
    if e != [] {
      ToMapOfSorted(e[1..]);
      ToMapKeys(e[1..]);
      KeysAreIds(e[1..]);
      forall i | 1 <= i < |e|
        ensures e[i].0 in ToMap(e) && ToMap(e)[e[i].0] == e[i].1
      {
        assert e[1..][i - 1] == e[i];
      }
    }
  }

  /** A chain: the registered callbacks, in id order. */
  datatype Chain<F> = Chain(entries: Entries<F>) {
    ghost predicate Valid() { Sorted(entries) }
  }

  function Empty<F>(): (c: Chain<F>)
    ensures c.Valid() && ToMap(c.entries) == map[]
  {
    Chain([])
  }

  /** `std::map::emplace(id, fn)`: inserts at its sorted place, and does
      nothing when `id` is already a key. */
  function Emplace<F>(e: Entries<F>, id: Cid, fn: F): (r: Entries<F>)
    requires Sorted(e)
    ensures Sorted(r)
    ensures Keys(r) == Keys(e) + {id}
  {
    if e == [] then [(id, fn)]
    else if e[0].0 == id then e
    else if id < e[0].0 then
      assert ([(id, fn)] + e)[1..] == e;
      [(id, fn)] + e
    else
      var rest := Emplace(e[1..], id, fn);
      assert ([e[0]] + rest)[1..] == rest;
      [e[0]] + rest
  }

  /** `emplace` adds `id -> fn` to the map view, or leaves the chain alone
      when `id` is taken (an existing callback is never replaced). */
  lemma {:induction false} EmplaceToMap<F>(e: Entries<F>, id: Cid, fn: F)
    requires Sorted(e)
    ensures id in Keys(e) ==> Emplace(e, id, fn) == e
    ensures ToMap(Emplace(e, id, fn)) == if id in Keys(e) then ToMap(e) else ToMap(e)[id := fn]
  {
    if e != [] && e[0].0 != id {
      if id < e[0].0 {
        assert ([(id, fn)] + e)[1..] == e;
      } else {
        var rest := Emplace(e[1..], id, fn);
        EmplaceToMap(e[1..], id, fn);
        assert ([e[0]] + rest)[1..] == rest;
      }
    }
  }

  /** `std::map::erase(id)`: removes the entry with key `id`, reporting
      whether there was one. */
  function Erase<F>(e: Entries<F>, id: Cid): (r: (Entries<F>, bool))
    requires Sorted(e)
    ensures Sorted(r.0)
    ensures r.1 <==> id in Keys(e)
    ensures Keys(r.0) == Keys(e) - {id}
  {
    if e == [] then ([], false)
    else if e[0].0 == id then (e[1..], true)
    else
      var (rest, found) := Erase(e[1..], id);
      assert ([e[0]] + rest)[1..] == rest;
      ([e[0]] + rest, found)
  }

  /** `erase` removes exactly `id` from the map view. */
  lemma {:induction false} EraseToMap<F>(e: Entries<F>, id: Cid)
    requires Sorted(e)
    ensures ToMap(Erase(e, id).0) == ToMap(e) - {id}
  {
    if e != [] {
      ToMapKeys(e[1..]);
      if e[0].0 != id {
        var rest := Erase(e[1..], id).0;
        EraseToMap(e[1..], id);
        assert ([e[0]] + rest)[1..] == rest;
      }
    }
  }

  /** `get_cid`: returns the shared counter and increments it, wrapping
      modulo 2^32 like any `unsigned`. */
  function GetCid(seed: Cid): (r: (Cid, Cid))
    ensures r.0 == seed
    ensures r.1 as int == (seed as int + 1) % CidModulus
    ensures r.1 != r.0
  {
    (seed, ((seed as int + 1) % CidModulus) as Cid)
  }

  datatype Added<F> = Added(chain: Chain<F>, seed: Cid, id: Cid)

  /** `add(fn)`: draws an id from the counter and emplaces `fn` under it. */
  function Add<F>(c: Chain<F>, seed: Cid, fn: F): (r: Added<F>)
    requires c.Valid()
    ensures r.chain.Valid()
    ensures r.id == seed
    ensures r.seed as int == (seed as int + 1) % CidModulus
    ensures seed !in Keys(c.entries) ==> ToMap(r.chain.entries) == ToMap(c.entries)[seed := fn]
    ensures seed in Keys(c.entries) ==> r.chain == c
  {
    var (id, next) := GetCid(seed);
    EmplaceToMap(c.entries, id, fn);
    Added(Chain(Emplace(c.entries, id, fn)), next, id)
  }

  /** `remove(id)`: true iff `id` was registered; afterwards it is not, and
      every other registration is unchanged. */
  function Remove<F>(c: Chain<F>, id: Cid): (r: (Chain<F>, bool))
    requires c.Valid()
    ensures r.0.Valid()
    ensures r.1 <==> id in ToMap(c.entries)
    ensures id !in ToMap(r.0.entries)
    ensures forall k :: k in ToMap(c.entries) && k != id ==>
      k in ToMap(r.0.entries) && ToMap(r.0.entries)[k] == ToMap(c.entries)[k]
  {
    ToMapKeys(c.entries);
    EraseToMap(c.entries, id);
    var (e, found) := Erase(c.entries, id);
    (Chain(e), found)
  }

  /** `operator()`: the ids whose callbacks are invoked, in invocation order. */
  function DispatchOrder<F>(c: Chain<F>): (ids: seq<Cid>)
    requires c.Valid()
    ensures forall i, j :: 0 <= i < j < |ids| ==> ids[i] < ids[j]
    ensures forall k :: k in ids <==> k in ToMap(c.entries)
  {
    var ids := seq(|c.entries|, i requires 0 <= i < |c.entries| => c.entries[i].0);
    SortedIncreasing(c.entries);
    KeysAreIds(c.entries);
    ToMapKeys(c.entries);
    forall k | k in ToMap(c.entries) ensures k in ids {
      var i :| 0 <= i < |c.entries| && c.entries[i].0 == k;
      assert ids[i] == k;
    }
    ids
  }

  /** `operator()`: the callbacks invoked, in invocation order. */
  function Dispatch<F>(c: Chain<F>): (calls: seq<F>)
    requires c.Valid()
    ensures |calls| == |DispatchOrder(c)| == |ToMap(c.entries)|
    ensures forall i :: 0 <= i < |calls| ==> calls[i] == ToMap(c.entries)[DispatchOrder(c)[i]]
  {
    ToMapOfSorted(c.entries);
    DistinctKeysCount(c.entries);
    ToMapKeys(c.entries);
    seq(|c.entries|, i requires 0 <= i < |c.entries| => c.entries[i].1)
  }

  lemma {:induction false} DistinctKeysCount<F>(e: Entries<F>)
    requires Sorted(e)
    ensures |Keys(e)| == |e|
  {
    if e != [] {
      DistinctKeysCount(e[1..]);
      assert e[0].0 !in Keys(e[1..]);
    }
  }

  /** Registers `fns` one after another, returning the ids handed out. */
  function AddAll<F>(c: Chain<F>, seed: Cid, fns: seq<F>): (r: (Added<F>, seq<Cid>))
    requires c.Valid()
    ensures r.0.chain.Valid()
    ensures |r.1| == |fns|
    decreases |fns|
  {
    if fns == [] then (Added(c, seed, seed), [])
    else
      var a := Add(c, seed, fns[0]);
      var (rest, ids) := AddAll(a.chain, a.seed, fns[1..]);
      (rest, [a.id] + ids)
  }

  /** The i-th `add` in a row receives the seed plus i, modulo 2^32. */
  lemma {:induction false} AddAllIds<F>(c: Chain<F>, seed: Cid, fns: seq<F>)
    requires c.Valid()
    ensures forall i :: 0 <= i < |fns| ==>
      AddAll(c, seed, fns).1[i] as int == (seed as int + i) % CidModulus
    decreases |fns|
  {
    if fns != [] {
      var a := Add(c, seed, fns[0]);
      var ids := AddAll(c, seed, fns).1;
      var rest := AddAll(a.chain, a.seed, fns[1..]).1;
      assert ids == [seed] + rest;
      AddAllIds(a.chain, a.seed, fns[1..]);
      forall i | 1 <= i < |fns|
        ensures ids[i] as int == (seed as int + i) % CidModulus
      {
        assert ids[i] == rest[i - 1];
        assert rest[i - 1] as int == (a.seed as int + (i - 1)) % CidModulus;
        ModShift(seed as int, i - 1);
      }
    }
  }

  /** Counting on from the wrapped successor is counting on from the seed. */
  lemma ModShift(s: int, i: nat)
    requires 0 <= s < CidModulus
    ensures ((s + 1) % CidModulus + i) % CidModulus == (s + 1 + i) % CidModulus
  {
    if s + 1 == CidModulus {
      assert (s + 1) % CidModulus == 0;
      assert (s + 1 + i) % CidModulus == i % CidModulus;
    }
  }

  /** Ids are distinct until the counter wraps around: up to 2^32
      consecutive `add` calls never hand out the same id twice. */
  lemma IdsDistinctUntilWrap<F>(c: Chain<F>, seed: Cid, fns: seq<F>)
    requires c.Valid()
    requires |fns| <= CidModulus
    ensures var ids := AddAll(c, seed, fns).1;
      forall i, j :: 0 <= i < j < |ids| ==> ids[i] != ids[j]
  {
    var ids := AddAll(c, seed, fns).1;
    AddAllIds(c, seed, fns);
    forall i, j | 0 <= i < j < |ids|
      ensures ids[i] != ids[j]
    {
      ModularDistinct(seed as int, i, j);
    }
  }

  lemma ModularDistinct(s: int, i: int, j: int)
    requires 0 <= s < CidModulus
    requires 0 <= i < j < CidModulus
    ensures (s + i) % CidModulus != (s + j) % CidModulus
  {
  }

  /** The counter is shared: two `add` calls, even on an empty chain, keep
      both callbacks, under consecutive ids. */
  lemma TwoAddsKeepBoth<F>(seed: Cid, f: F, g: F)
    ensures var a := Add(Empty<F>(), seed, f);
      var b := Add(a.chain, a.seed, g);
      a.id != b.id && ToMap(b.chain.entries) == map[a.id := f, b.id := g]
  {
  }
}

=== FILE: chip_base.dfy ===
/** The chip every backend builds on: a type name, an id, a label and the
    list of pins, with bounds-checked access to the pins.

    `pin(n)` has a const and a non-const overload with the same body; both
    are `PinAt` here, since a value model has no constness.
 */
module ChipBase {
  import opened Wrappers
  import opened Decimal

  datatype Chip<P> = Chip(typ: string, id: string, name: string, pins: seq<P>)

  function PinCount<P>(c: Chip<P>): nat { |c.pins| }

  /** `type_id()`: the type, qualified by the id when there is one. */
  function TypeId<P>(c: Chip<P>): (r: string)
    ensures c.id == [] ==> r == c.typ
    ensures c.id != [] ==>
      |r| == |c.typ| + 1 + |c.id| && r[..|c.typ|] == c.typ && r[|c.typ|] == ':' && r[|c.typ| + 1..] == c.id
  {
    if |c.id| > 0 then c.typ + [':'] + c.id else c.typ
  }

  /** The text of the out-of-range error for pin `n`. */
  function RangeMessage<P>(c: Chip<P>, n: nat): string
  {
    TypeId(c) + ": Invalid pin # " + NatToString(n)
  }

  /** `pin(n)`: the stored pin, or `out_of_range` past the last one. */
  function PinAt<P>(c: Chip<P>, n: nat): (r: Result<P>)
    ensures r.Ok? <==> n < PinCount(c)
    ensures r.Ok? ==> r.value == c.pins[n]
    ensures r.Err? ==> r.error.kind == OutOfRange
  {
    if n >= PinCount(c) then Err(Error(OutOfRange, RangeMessage(c, n)))
    else Ok(c.pins[n])
  }

  /** The range error names the chip and the pin number asked for, so the
      number can be read back from the message. */
  lemma RangeErrorNamesPin<P>(c: Chip<P>, n: nat)
    requires n >= PinCount(c)
    ensures var msg := PinAt(c, n).error.msg;
      var prefix := TypeId(c) + ": Invalid pin # ";
      |prefix| < |msg| && msg[..|prefix|] == prefix
      && AllDigits(msg[|prefix|..]) && ParseDigits(msg[|prefix|..]) == n
  {
    var prefix := TypeId(c) + ": Invalid pin # ";
    var msg := PinAt(c, n).error.msg;
    assert msg == prefix + NatToString(n);
    assert msg[|prefix|..] == NatToString(n);
    ParseNatToString(n);
  }

  /** Two out-of-range requests on one chip give the same message only for
      the same pin number. */
  lemma RangeErrorsDistinguishPins<P>(c: Chip<P>, m: nat, n: nat)
    requires m >= PinCount(c) && n >= PinCount(c) && m != n
    ensures PinAt(c, m).error != PinAt(c, n).error
  {
    RangeErrorNamesPin(c, m);
    RangeErrorNamesPin(c, n);
  }
}

/** The chip interface the library exposes: the same bounds-checked access,
    with a message that does not name the chip.
 */
module ChipIface {
  import opened Wrappers
  import opened Decimal

  datatype Chip<P> = Chip(id: string, name: string, pins: seq<P>)

  function PinCount<P>(c: Chip<P>): nat { |c.pins| }

  /** `pin(n)`, const and non-const alike. */
  function PinAt<P>(c: Chip<P>, n: nat): (r: Result<P>)
    ensures r.Ok? <==> n < PinCount(c)
    ensures r.Ok? ==> r.value == c.pins[n]
    ensures r.Err? ==> r.error.kind == OutOfRange
  {
    if n >= PinCount(c) then Err(Error(OutOfRange, "Invalid pin # " + NatToString(n)))
    else Ok(c.pins[n])
  }

  /** The error message is the fixed text followed by exactly the decimal
      spelling of the pin number. */
  lemma RangeErrorIsDecimal<P>(c: Chip<P>, n: nat)
    requires n >= PinCount(c)
    ensures var msg := PinAt(c, n).error.msg;
      |msg| > 14 && msg[..14] == "Invalid pin # "
      && AllDigits(msg[14..]) && ParseDigits(msg[14..]) == n
      && (msg[14] == '0' <==> n == 0)
  {
    var msg := PinAt(c, n).error.msg;
    assert msg[14..] == NatToString(n);
    ParseNatToString(n);
  }
}

=== FILE: chip_open.dfy ===
/** The two character-device chips, `chip` (line-event pins) and `gpiod`
    (line-handle pins): validating the chip id, opening the device,
    enumerating its lines as pins, and tearing the chip down.

    The device's answers (opening the file, the chip-info query, each
    line's info) are parameters.  The `type_id` prefix the constructors put
    in front of their messages comes from a helper that is not part of this
    model, so the messages here start after it.
 */
module ChipOpen {
  import opened Wrappers
  import opened Decimal
  import opened LineIo
  import ChipBase
  import GenericPin
  import GpiodPin

  /** `find_first_not_of("0123456789")`: where the first non-digit is. */
  function FirstNonDigit(s: string): (r: Option<nat>)
    ensures r.None? <==> AllDigits(s)
    ensures r.Some? ==> r.value < |s| && !IsDigit(s[r.value]) && AllDigits(s[..r.value])
  {
    if s == [] then None
    else if !IsDigit(s[0]) then Some(0)
    else match FirstNonDigit(s[1..])
      case None => None
      case Some(i) => Some(i + 1)
  }

  /** The constructors' id check, in the order the code tests it. */
  predicate ValidId(id: string) {
    !(FirstNonDigit(id).Some? || |id| < 1 || |id| > 3)
  }

  /** An id is accepted iff it is one to three decimal digits. */
  lemma ValidIdIsShortDecimal(id: string)
    ensures ValidId(id) <==> 1 <= |id| <= 3 && forall i :: 0 <= i < |id| ==> '0' <= id[i] <= '9'
  {
  }

  lemma {:induction false} DecimalLength(n: nat)
    ensures n < 10 <==> |NatToString(n)| <= 1
    ensures n < 100 <==> |NatToString(n)| <= 2
    ensures n < 1000 <==> |NatToString(n)| <= 3
  {
    if n >= 10 {
      DecimalLength(n / 10);
    }
  }

  /** The plainly spelled chip numbers that are accepted are exactly 0 to
      999. */
  lemma NumberedIds(n: nat)
    ensures ValidId(NatToString(n)) <==> n < 1000
  {
    DecimalLength(n);
  }

  /** `gpiochip_info`: the chip's label (`tag`) and how many lines it has. */
  datatype ChipInfo = ChipInfo(tag: string, lines: nat)

  function DevicePath(id: string): string { "/dev/gpiochip" + id }

  const InvalidId := "Missing or invalid id "
  const OpenError := "Error opening file "
  const InfoError := "Error getting chip info - "

  /** Constructing pins 0 .. k-1 in order; the first constructor that throws
      ends the enumeration with its exception. */
  function BuildPins<P>(mk: nat -> Result<P>, k: nat): (r: Result<seq<P>>)
    ensures r.Ok? <==> forall n :: 0 <= n < k ==> mk(n).Ok?
    ensures r.Ok? ==> |r.value| == k && forall n :: 0 <= n < k ==> mk(n) == Ok(r.value[n])
    ensures r.Err? ==> exists n :: 0 <= n < k && mk(n) == Err(r.error) && forall m :: 0 <= m < n ==> mk(m).Ok?
    decreases k
  {
    if k == 0 then Ok([])
    else
      match BuildPins(mk, k - 1)
      case Err(e) => Err(e)
      case Ok(ps) =>
        match mk(k - 1)
        case Err(e) => Err(e)
        case Ok(p) => Ok(ps + [p])
  }

  /** The constructor: check the id, open `/dev/gpiochipN`, ask for the chip
      info, then make one pin per line.  The chip (and so its id) exists only
      when every step succeeds. */
  function Open<P>(typ: string, id: string, opening: Reply<()>, info: Reply<ChipInfo>,
                   mk: nat -> Result<P>): (r: Result<ChipBase.Chip<P>>)
    ensures !ValidId(id) ==> r == Err(Error(InvalidArgument, InvalidId + id))
    ensures ValidId(id) && opening.Failed? ==>
      r == Err(Error(RuntimeError, OpenError + DevicePath(id) + " - " + opening.msg))
    ensures ValidId(id) && opening.Answer? && info.Failed? ==>
      r == Err(Error(RuntimeError, InfoError + info.msg))
    ensures r.Ok? <==>
      ValidId(id) && opening.Answer? && info.Answer? && forall n :: 0 <= n < info.value.lines ==> mk(n).Ok?
    ensures r.Ok? ==> r.value.typ == typ && r.value.id == id && r.value.name == info.value.tag
    ensures r.Ok? ==> ChipBase.PinCount(r.value) == info.value.lines
    ensures r.Ok? ==> forall n :: 0 <= n < info.value.lines ==> mk(n) == Ok(r.value.pins[n])
  {
    if !ValidId(id) then Err(Error(InvalidArgument, InvalidId + id))
    else if opening.Failed? then Err(Error(RuntimeError, OpenError + DevicePath(id) + " - " + opening.msg))
    else if info.Failed? then Err(Error(RuntimeError, InfoError + info.msg))
    else
      match BuildPins(mk, info.value.lines)
      case Err(e) => Err(e)
      case Ok(ps) => Ok(ChipBase.Chip(typ, id, info.value.tag, ps))
  }

  /** The `chip` backend: one line-event pin per line. */
  function OpenGeneric(id: string, opening: Reply<()>, info: Reply<ChipInfo>,
                       lineInfo: nat -> Reply<LineInfo>): (r: Result<ChipBase.Chip<GenericPin.Pin>>)
    ensures r.Ok? ==> r.value.typ == "chip" && r.value.id == id
    ensures r.Ok? ==> forall n :: 0 <= n < ChipBase.PinCount(r.value) ==>
      var p := r.value.pins[n];
      p.base.pos == n && p.Inv() && GenericPin.IsDetached(p)
  {
    var r := Open("chip", id, opening, info, n => GenericPin.New(n, lineInfo(n)));
    assert r.Ok? ==> forall n :: 0 <= n < ChipBase.PinCount(r.value) ==> GenericPin.New(n, lineInfo(n)) == Ok(r.value.pins[n]);
    r
  }

  /** The `gpiod` backend: one line-handle pin per line. */
  function OpenGpiod(id: string, opening: Reply<()>, info: Reply<ChipInfo>,
                     lineInfo: nat -> Reply<LineInfo>): (r: Result<ChipBase.Chip<GpiodPin.Pin>>)
    ensures r.Ok? ==> r.value.typ == "gpiod" && r.value.id == id
    ensures r.Ok? ==> forall n :: 0 <= n < ChipBase.PinCount(r.value) ==>
      var p := r.value.pins[n];
      p.base.pos == n && p.Inv() && GpiodPin.IsDetached(p)
  {
    var r := Open("gpiod", id, opening, info, n => GpiodPin.New(n, lineInfo(n)));
    assert r.Ok? ==> forall n :: 0 <= n < ChipBase.PinCount(r.value) ==> GpiodPin.New(n, lineInfo(n)) == Ok(r.value.pins[n]);
    r
  }

  /** A chip opened from a well-formed id can be found again under its
      qualified name. */
  lemma OpenedChipTypeId(id: string, opening: Reply<()>, info: Reply<ChipInfo>,
                         lineInfo: nat -> Reply<LineInfo>)
    requires OpenGeneric(id, opening, info, lineInfo).Ok?
    ensures ChipBase.TypeId(OpenGeneric(id, opening, info, lineInfo).value) == "chip:" + id
  {
  }

  /** What tearing a chip down does, in order. */
  datatype Teardown = PinDetach(n: nat, effects: seq<Effect>) | CloseChip

  /** The destructor: clearing the pin list runs every pin's detach, and
      only then is the chip descriptor closed. */
  function Destroy<P>(pins: seq<P>, detach: (nat, P) -> seq<Effect>): (r: seq<Teardown>)
    ensures |r| == |pins| + 1 && r[|pins|] == CloseChip
    ensures forall n :: 0 <= n < |pins| ==> r[n] == PinDetach(n, detach(n, pins[n]))
    decreases |pins|
  {
    if pins == [] then [CloseChip]
    else
      var last := |pins| - 1;
      Destroy(pins[..last], detach)[..last] + [PinDetach(last, detach(last, pins[last]))] + [CloseChip]
  }

  function DestroyGeneric(c: ChipBase.Chip<GenericPin.Pin>, lineInfo: nat -> Reply<LineInfo>): seq<Teardown>
  {
    Destroy(c.pins, (n, p) => GenericPin.Detach(p, lineInfo(n)).effects)
  }

  function DestroyGpiod(c: ChipBase.Chip<GpiodPin.Pin>, lineInfo: nat -> Reply<LineInfo>): seq<Teardown>
  {
    Destroy(c.pins, (n, p) => GpiodPin.Detach(p, lineInfo(n)).effects)
  }

  /** Every attached line is closed, and its info re-read, while the chip
      descriptor is still open; detached lines need nothing. */
  lemma LinesCloseBeforeChip(c: ChipBase.Chip<GenericPin.Pin>, lineInfo: nat -> Reply<LineInfo>)
    ensures var r := DestroyGeneric(c, lineInfo);
      |r| == |c.pins| + 1 && r[|c.pins|] == CloseChip
      && forall n :: 0 <= n < |c.pins| ==>
        r[n].PinDetach? && r[n].n == n
        && (GenericPin.IsDetached(c.pins[n]) ==> r[n].effects == [])
        && (!GenericPin.IsDetached(c.pins[n]) ==> CloseLine in r[n].effects && QueryLineInfo in r[n].effects)
  {
    var r := DestroyGeneric(c, lineInfo);
    forall n | 0 <= n < |c.pins|
      ensures r[n].PinDetach? && r[n].n == n
      ensures GenericPin.IsDetached(c.pins[n]) ==> r[n].effects == []
      ensures !GenericPin.IsDetached(c.pins[n]) ==> CloseLine in r[n].effects && QueryLineInfo in r[n].effects
    {
      var e := r[n].effects;
      assert e == GenericPin.Detach(c.pins[n], lineInfo(n)).effects;
      if !GenericPin.IsDetached(c.pins[n]) {
        assert e[|e| - 2] == CloseLine && e[|e| - 1] == QueryLineInfo by {
          assert e[|e| - 2..] == [CloseLine, QueryLineInfo];
          assert e[|e| - 2..][0] == e[|e| - 2];
        }
      }
    }
  }

  /** The same for a `gpiod` chip. */
  lemma GpiodLinesCloseBeforeChip(c: ChipBase.Chip<GpiodPin.Pin>, lineInfo: nat -> Reply<LineInfo>)
    ensures var r := DestroyGpiod(c, lineInfo);
      |r| == |c.pins| + 1 && r[|c.pins|] == CloseChip
      && forall n :: 0 <= n < |c.pins| ==>
        r[n].PinDetach? && r[n].n == n
        && (GpiodPin.IsDetached(c.pins[n]) ==> r[n].effects == [])
        && (!GpiodPin.IsDetached(c.pins[n]) ==> CloseLine in r[n].effects && QueryLineInfo in r[n].effects)
  {
    var r := DestroyGpiod(c, lineInfo);
    forall n | 0 <= n < |c.pins|
      ensures r[n].PinDetach? && r[n].n == n
      ensures GpiodPin.IsDetached(c.pins[n]) ==> r[n].effects == []
      ensures !GpiodPin.IsDetached(c.pins[n]) ==> CloseLine in r[n].effects && QueryLineInfo in r[n].effects
    {
      var e := r[n].effects;
      assert e == GpiodPin.Detach(c.pins[n], lineInfo(n)).effects;
      if !GpiodPin.IsDetached(c.pins[n]) {
        assert e[|e| - 2] == CloseLine && e[|e| - 1] == QueryLineInfo by {
          assert e[|e| - 2..] == [CloseLine, QueryLineInfo];
          assert e[|e| - 2..][0] == e[|e| - 2];
        }
      }
    }
  }

  /** `delete_chip`: a null chip is ignored; otherwise the chip is
      destroyed. */
  function DeleteChip(c: Option<ChipBase.Chip<GpiodPin.Pin>>, lineInfo: nat -> Reply<LineInfo>): (r: seq<Teardown>)
    ensures c.None? ==> r == []
    ensures c.Some? ==> |r| == |c.value.pins| + 1 && r[|r| - 1] == CloseChip
  {
    match c
    case None => []
    case Some(chip) => DestroyGpiod(chip, lineInfo)
  }
}

=== FILE: decimal.dfy ===
/** Decimal rendering of integers, as `std::to_string` produces it for the
    pin numbers, chip ids and flag values that appear in the library's
    identifiers and error messages.
 */
module Decimal {

  predicate IsDigit(c: char) { '0' <= c <= '9' }

  predicate AllDigits(s: string) {
    forall i :: 0 <= i < |s| ==> IsDigit(s[i])
  }

  function DigitChar(d: nat): (c: char)
    requires d < 10
    ensures IsDigit(c)
    ensures c as int - '0' as int == d
  {
    ('0' as int + d) as char
  }

  function DigitValue(c: char): (d: nat)
    requires IsDigit(c)
    ensures d < 10
  {
    c as int - '0' as int
  }

  /** The shortest decimal spelling of `n`: digits only, no leading zero. */
  function NatToString(n: nat): (s: string)
    ensures 1 <= |s|
    ensures AllDigits(s)
    ensures s[0] == '0' <==> n == 0
    ensures n == 0 ==> s == "0"
  {
    if n < 10 then [DigitChar(n)]
    else NatToString(n / 10) + [DigitChar(n % 10)]
  }

  /** `std::to_string` of a signed value: a minus sign, then the magnitude. */
  function IntToString(i: int): (s: string)
    ensures 1 <= |s|
    ensures i < 0 <==> s[0] == '-'
    ensures i >= 0 ==> AllDigits(s)
  {
    if i < 0 then "-" + NatToString(-i) else NatToString(i)
  }

  /** The value a digit string denotes, most significant digit first. */
  function ParseDigits(s: string): nat
    requires AllDigits(s)
  {
    if s == [] then 0
    else ParseDigits(s[..|s| - 1]) * 10 + DigitValue(s[|s| - 1])
  }

  /** Reading back what `NatToString` wrote gives the original number. */
  lemma {:induction false} ParseNatToString(n: nat)
    ensures ParseDigits(NatToString(n)) == n
  {
    var s := NatToString(n);
    if n < 10 {
      assert s[..|s| - 1] == [];
    } else {
      var prefix := NatToString(n / 10);
      assert s[..|s| - 1] == prefix;
      ParseNatToString(n / 10);
    }
  }

  /** Distinct numbers are spelled differently. */
  lemma NatToStringInjective(m: nat, n: nat)
    requires NatToString(m) == NatToString(n)
    ensures m == n
  {
    ParseNatToString(m);
    ParseNatToString(n);
  }
}

=== FILE: flags.dfy ===
/** Pin mode flags: a C++ enum used as a bit set over `int`.

    Both type headers declare the same five constants; the older one
    offers `|` and `&`, the newer one adds `|=`, `&=` and `~`.  Every
    operator converts to `int`, combines bitwise and converts back, so a
    flag set is a 32-bit vector here.
 */
module Flags {

  type Flag = bv32

  const NoFlags: Flag := 0

  // digital_in and digital_out
  const ActiveLow: Flag := 0x0001
  // digital_in
  const PullUp: Flag := 0x0010
  const PullDown: Flag := 0x0020
  // digital_out
  const OpenDrain: Flag := 0x0100
  const OpenSource: Flag := 0x0200

  const AllFlags: seq<Flag> := [ActiveLow, PullUp, PullDown, OpenDrain, OpenSource]

  /** `operator|`: the result holds both operands' bits ... */
  function Or(x: Flag, y: Flag): (r: Flag)
    ensures r & x == x && r & y == y
  {
    x | y
  }

  /** ... and no other bit. */
  lemma OrAddsNoOtherBit(x: Flag, y: Flag)
    ensures Or(x, y) & !x & !y == NoFlags
  {
  }

  /** `operator&`: the result holds exactly the bits both operands share. */
  function And(x: Flag, y: Flag): (r: Flag)
    ensures r | x == x && r | y == y
    ensures x & !r & y == NoFlags
  {
    x & y
  }

  /** `operator~`: every bit flipped. */
  function Not(x: Flag): (r: Flag)
    ensures r & x == NoFlags
    ensures r | x == 0xFFFF_FFFF
  {
    !x
  }

  /** `|=` and `&=` assign the result of `|` and `&` and return it. */
  function OrAssign(x: Flag, y: Flag): (r: (Flag, Flag))
    ensures r.0 == r.1 && r.0 & x == x && r.0 & y == y
  {
    var v := Or(x, y); (v, v)
  }

  function AndAssign(x: Flag, y: Flag): (r: (Flag, Flag))
    ensures r.0 == r.1 && Or(r.0, x) == x && Or(r.0, y) == y
  {
    var v := And(x, y); (v, v)
  }

  /** Clearing `g` out of `f` leaves no bit of `g`, and keeps every other bit of `f`. */
  lemma ClearLeavesNoBit(f: Flag, g: Flag)
    ensures And(And(f, Not(g)), g) == NoFlags
    ensures Or(And(f, Not(g)), And(f, g)) == f
  {
  }

  /** Each constant is a single bit, and no two constants share one. */
  lemma ConstantsAreDisjointBits()
    ensures forall i :: 0 <= i < |AllFlags| ==>
      AllFlags[i] != NoFlags && And(AllFlags[i], AllFlags[i] - 1) == NoFlags
    ensures forall i, j :: 0 <= i < j < |AllFlags| ==> And(AllFlags[i], AllFlags[j]) == NoFlags
  {
  }

  /** `static_cast<int>(f)`: the two's-complement reading of the 32 bits. */
  function ToInt(f: Flag): (i: int)
  {
    if f < 0x8000_0000 then f as int else f as int - 0x1_0000_0000
  }
}

=== FILE: generic_pin.dfy ===
/** The `generic` backend pin: a line of a Linux GPIO character device,
    requested as an event line for input (whose edges are read
    asynchronously) and as a handle line for output and PWM, with PWM done
    in software by a worker.

    Every kernel call's answer is a parameter; the operations return the
    pin afterwards, whether they threw, and the calls they made in order.
 */
module GenericPin {
  import opened Wrappers
  import opened Flags
  import opened Modes
  import opened Decimal
  import opened LineIo
  import opened SoftPwm
  import PinBase

  const SupportedModes: set<Mode> := {DigitalIn, DigitalOut, Pwm}
  const ValidFlags: Flag := Or(ActiveLow, Or(OpenDrain, OpenSource))

  const InfoError: string := "Cannot get pin info - "
  const ModeError: string := "Cannot set pin mode - "
  const SetError: string := "Cannot set pin state - "
  const GetError: string := "Cannot get pin state - "
  const DetachedInstance: string := "Detached instance"

  /** `GPIOEVENT_EVENT_RISING_EDGE`. */
  const RisingEdgeId: int := 0x01

  datatype Pin = Pin(
    base: PinBase.Pin,
    open: bool,        // the line descriptor is open
    armed: bool,       // an event read is queued on it
    worker: Worker,
    ticks: Ticks)
  {
    /** What every operation keeps: a valid period, ticks that match the
        period and pulse, a worker or a queued read only on an open line,
        and the capabilities the constructor sets. */
    ghost predicate Inv() {
      && base.Valid()
      && ticks == Split(base.period, base.pulse)
      && (worker == Running ==> open)
      && (armed ==> open)
      && base.modes == SupportedModes
      && base.valid == ValidFlags
    }
  }

  /** `mode()`: `pwm` while the worker runs, else the mode last read from
      the kernel. */
  function ReportedMode(p: Pin): Mode { if p.worker == Running then Pwm else p.base.mode }

  predicate IsDetached(p: Pin) { !p.open }

  predicate PwmStarted(p: Pin) { p.worker == Running }

  /** `update()`: one line-info query; a failure throws and changes nothing. */
  function Refresh(p: Pin, info: Reply<LineInfo>): (r: Outcome<Pin>)
    ensures r.effects == [QueryLineInfo]
    ensures r.status.Raised? <==> info.Failed?
    ensures r.status.Raised? ==> r.status.error == Error(RuntimeError, InfoError + info.msg)
    ensures r.pin.(base := p.base) == p
    ensures r.pin.base.(name := p.base.name, mode := p.base.mode, flags := p.base.flags, used := p.base.used) == p.base
  {
    match info
    case Failed(msg) => Outcome(p, Raised(Error(RuntimeError, InfoError + msg)), [QueryLineInfo])
    case Answer(li) => Outcome(p.(base := Update(p.base, li)), Done, [QueryLineInfo])
  }

  /** The constructor: capabilities, default PWM ticks, then `update()`. */
  function New(pos: nat, info: Reply<LineInfo>): (r: Result<Pin>)
    ensures r.Ok? <==> info.Answer?
    ensures r.Err? ==> r.error == Error(RuntimeError, InfoError + info.msg)
    ensures r.Ok? ==> r.value.Inv() && IsDetached(r.value) && !PwmStarted(r.value)
    ensures r.Ok? ==> r.value.base.pos == pos && ReportedMode(r.value) != Detached
    ensures r.Ok? ==> ReportedMode(r.value) == (if info.value.isOut then DigitalOut else DigitalIn)
    ensures r.Ok? ==> r.value.base.period == PinBase.DefaultPeriod && r.value.base.pulse == 0
  {
    var b := PinBase.New(pos).(modes := SupportedModes, valid := ValidFlags);
    var p := Pin(b, false, false, Stopped, Split(b.period, b.pulse));
    match info
    case Failed(msg) => Err(Error(RuntimeError, InfoError + msg))
    case Answer(li) => Ok(p.(base := Update(p.base, li)))
  }

  /** `detach()`: on an open line, stop the worker if it runs, close the
      line (which also cancels a queued read), then `update()`. */
  function Detach(p: Pin, info: Reply<LineInfo>): (r: Outcome<Pin>)
    ensures IsDetached(r.pin)
    ensures !IsDetached(p) ==> !r.pin.armed && !PwmStarted(r.pin)
    ensures IsDetached(p) ==> r == Outcome(p, Done, [])
    ensures forall e :: e in r.effects ==> !IsRequest(e) && e != StartWorker
    ensures !IsDetached(p) ==> (StopWorker in r.effects <==> PwmStarted(p))
    ensures !IsDetached(p) ==> |r.effects| >= 2 && r.effects[|r.effects| - 2..] == [CloseLine, QueryLineInfo]
    ensures r.status.Raised? ==> r.status.error.kind == RuntimeError && info.Failed?
    ensures r.pin.ticks == p.ticks
    ensures r.pin.base.period == p.base.period && r.pin.base.pulse == p.base.pulse
    ensures r.pin.base.modes == p.base.modes && r.pin.base.valid == p.base.valid
    ensures p.Inv() ==> r.pin.Inv()
  {
    if !p.open then Outcome(p, Done, [])
    else
      var stopped := if p.worker == Running then [StopWorker] else [];
      var closed := p.(worker := Stopped, open := false, armed := false);
      var u := Refresh(closed, info);
      Outcome(u.pin, u.status, stopped + [CloseLine] + u.effects)
  }

  /** A second `detach()` does nothing, whatever the kernel would answer. */
  lemma DetachIdempotent(p: Pin, i1: Reply<LineInfo>, i2: Reply<LineInfo>)
    ensures var d := Detach(p, i1); Detach(d.pin, i2) == Outcome(d.pin, Done, [])
  {
  }

  /** The three kernel answers `mode()` depends on. */
  datatype ModeReplies = ModeReplies(
    detachInfo: Reply<LineInfo>,   // update() inside detach()
    request: Reply<()>,            // the line request
    info: Reply<LineInfo>)         // update() after the request

  /** The request `mode()` makes: an event line on both edges for input,
      a handle line with the initial state for output and PWM. */
  function Request(m: Mode, bits: set<ReqFlag>, s: State): Effect
  {
    if m == DigitalIn then EventRequest(bits + {ReqInput}) else HandleRequest(bits + {ReqOutput}, s)
  }

  predicate Switchable(m: Mode) { m == DigitalIn || m == DigitalOut || m == Pwm }

  /** The part of `mode()` after the flags and mode are accepted: the
      line request, the queued read for input, `update()`, and the worker
      for `pwm`. */
  function Attach(q: Pin, m: Mode, bits: set<ReqFlag>, s: State, request: Reply<()>, info: Reply<LineInfo>): (r: Outcome<Pin>)
    requires Switchable(m) && !PwmStarted(q)
    ensures |r.effects| >= 1 && r.effects[0] == Request(m, bits, s)
    ensures PwmStarted(r.pin) <==> m == Pwm && r.status == Done
    ensures PwmStarted(r.pin) ==> r.effects[|r.effects| - 1] == StartWorker
    ensures r.status == Done ==> !IsDetached(r.pin) && (r.pin.armed <==> m == DigitalIn)
    ensures r.status.Raised? ==> r.status.error.kind == RuntimeError
    ensures forall i :: 1 <= i < |r.effects| ==> !IsRequest(r.effects[i]) && r.effects[i] != CloseLine
    ensures r.pin.ticks == q.ticks && r.pin.base.period == q.base.period && r.pin.base.pulse == q.base.pulse
    ensures r.pin.base.modes == q.base.modes && r.pin.base.valid == q.base.valid
  {
    var req := Request(m, bits, s);
    match request
    case Failed(msg) =>
      Outcome(q, Raised(Error(RuntimeError, ModeError + msg)), [req])
    case Answer(_) =>
      var attached := q.(open := true, armed := m == DigitalIn);
      var armed := if m == DigitalIn then [ArmRead] else [];
      var u := Refresh(attached, info);
      var effects := [req] + armed + u.effects;
      if u.status.Raised? then Outcome(u.pin, u.status, effects)
      else if m == Pwm then Outcome(u.pin.(worker := Running), Done, effects + [StartWorker])
      else Outcome(u.pin, Done, effects)
  }

  /** `mode(m, flags, state)`: detach, translate the flags against the
      valid ones (anything left over is rejected), switch on the mode,
      then attach. */
  function SetMode(p: Pin, m: Mode, flags: Flag, s: State, rep: ModeReplies): (r: Outcome<Pin>)
    requires p.Inv()
    ensures r.pin.Inv()
    ensures PwmStarted(r.pin) <==> m == Pwm && r.status == Done
    ensures PwmStarted(r.pin) ==> |r.effects| >= 1 && r.effects[|r.effects| - 1] == StartWorker
    ensures r.status == Done ==> !IsDetached(r.pin) && (r.pin.armed <==> m == DigitalIn)
    ensures r.status == Done ==> Switchable(m) && Convert(flags, OutputFlags).1 == NoFlags
    ensures r.status == Done ==> Request(m, Convert(flags, OutputFlags).0, s) in r.effects
    ensures Convert(flags, OutputFlags).1 != NoFlags || !Switchable(m) ==>
      r.status.Raised? && IsDetached(r.pin) && forall e :: e in r.effects ==> !IsRequest(e)
    ensures rep.detachInfo.Answer? && Convert(flags, OutputFlags).1 != NoFlags ==>
      r.status == Raised(Error(InvalidArgument, ModeError + "Invalid flag(s): " + IntToString(ToInt(Convert(flags, OutputFlags).1))))
    ensures rep.detachInfo.Answer? && Convert(flags, OutputFlags).1 == NoFlags && !Switchable(m) ==>
      r.status == Raised(Error(InvalidArgument, ModeError + "Invalid mode: " + NatToString(ModeValue(m))))
    ensures r.status.Fails(InvalidArgument) ==> IsDetached(r.pin)
    ensures r.pin.ticks == p.ticks && r.pin.base.period == p.base.period && r.pin.base.pulse == p.base.pulse
  {
    var d := Detach(p, rep.detachInfo);
    if d.status.Raised? then d
    else
      var (bits, rest) := Convert(flags, OutputFlags);
      if rest != NoFlags then
        Outcome(d.pin, Raised(Error(InvalidArgument, ModeError + "Invalid flag(s): " + IntToString(ToInt(rest)))), d.effects)
      else if !Switchable(m) then
        Outcome(d.pin, Raised(Error(InvalidArgument, ModeError + "Invalid mode: " + NatToString(ModeValue(m)))), d.effects)
      else
        var a := Attach(d.pin, m, bits, s, rep.request, rep.info);
        Outcome(a.pin, a.status, d.effects + a.effects)
  }

  /** `mode()` closes the old line before it requests the new one. */
  lemma ModeClosesBeforeRequest(p: Pin, m: Mode, flags: Flag, s: State, rep: ModeReplies)
    requires p.Inv()
    ensures var r := SetMode(p, m, flags, s, rep);
      forall i, j :: 0 <= i < |r.effects| && 0 <= j < |r.effects| && r.effects[i] == CloseLine && IsRequest(r.effects[j]) ==> i < j
  {
    var d := Detach(p, rep.detachInfo);
    var r := SetMode(p, m, flags, s, rep);
    var (bits, rest) := Convert(flags, OutputFlags);
    if d.status.Done? && rest == NoFlags && Switchable(m) {
      var a := Attach(d.pin, m, bits, s, rep.request, rep.info);
      assert r.effects == d.effects + a.effects;
      ClosesThenRequests(d.effects, a.effects);
    }
  }

  /** Effects with no request followed by effects with no close: every
      close comes before every request. */
  lemma ClosesThenRequests(before: seq<Effect>, after: seq<Effect>)
    requires forall e :: e in before ==> !IsRequest(e)
    requires CloseLine !in after
    ensures var all := before + after;
      forall i, j :: 0 <= i < |all| && 0 <= j < |all| && all[i] == CloseLine && IsRequest(all[j]) ==> i < j
  {
    var all := before + after;
    assert forall k :: 0 <= k < |before| ==> all[k] == before[k];
    assert forall k :: |before| <= k < |all| ==> all[k] == after[k - |before|];
  }

  /** With every call succeeding and the kernel reporting the direction
      and flags that were requested, the pin reports the mode and exactly
      the flags asked for. */
  lemma ModeTakesEffect(p: Pin, m: Mode, flags: Flag, s: State, rep: ModeReplies)
    requires p.Inv() && Switchable(m)
    requires And(flags, Not(ValidFlags)) == NoFlags
    requires rep.detachInfo.Answer? && rep.request.Answer? && rep.info.Answer?
    requires rep.info.value.isOut == (m != DigitalIn)
    requires rep.info.value.activeLow == (And(flags, ActiveLow) != NoFlags)
    requires rep.info.value.openDrain == (And(flags, OpenDrain) != NoFlags)
    requires rep.info.value.openSource == (And(flags, OpenSource) != NoFlags)
    ensures var r := SetMode(p, m, flags, s, rep);
      && r.status == Done && !IsDetached(r.pin) && ReportedMode(r.pin) == m
      && PinBase.Is(r.pin.base, ActiveLow) == (And(flags, ActiveLow) != NoFlags)
      && PinBase.Is(r.pin.base, OpenDrain) == (And(flags, OpenDrain) != NoFlags)
      && PinBase.Is(r.pin.base, OpenSource) == (And(flags, OpenSource) != NoFlags)
  {
    ConvertOutputFlags(flags);
    var d := Detach(p, rep.detachInfo);
    var (bits, rest) := Convert(flags, OutputFlags);
    assert rest == NoFlags;
    var a := Attach(d.pin, m, bits, s, rep.request, rep.info);
    assert SetMode(p, m, flags, s, rep) == Outcome(a.pin, a.status, d.effects + a.effects);
    var u := Refresh(d.pin.(open := true, armed := m == DigitalIn), rep.info);
    assert a.pin.base == u.pin.base == Update(d.pin.base, rep.info.value);
  }

  /** `set(state)`: rejected on a detached pin, otherwise one write.  It
      does not check for a running worker. */
  function SetState(p: Pin, s: State, reply: Reply<()>): (r: Outcome<Pin>)
    ensures r.pin == p
    ensures IsDetached(p) ==> r.status == Raised(Error(LogicError, SetError + DetachedInstance)) && r.effects == []
    ensures !IsDetached(p) ==> r.effects == [SetValue(s)] && (r.status == Done <==> reply.Answer?)
    ensures !IsDetached(p) && reply.Failed? ==> r.status.error == Error(RuntimeError, SetError + reply.msg)
  {
    if !p.open then Outcome(p, Raised(Error(LogicError, SetError + DetachedInstance)), [])
    else match reply
      case Failed(msg) => Outcome(p, Raised(Error(RuntimeError, SetError + msg)), [SetValue(s)])
      case Answer(_) => Outcome(p, Done, [SetValue(s)])
  }

  /** `reset()`: `set(off)`. */
  function Reset(p: Pin, reply: Reply<()>): (r: Outcome<Pin>)
    ensures r.pin == p
    ensures IsDetached(p) ==> r.status.Fails(LogicError)
    ensures !IsDetached(p) ==> r.effects == [SetValue(Off)] && (r.status == Done <==> reply.Answer?)
  {
    SetState(p, Off, reply)
  }

  /** `state()`: rejected on a detached pin, otherwise one read. */
  function GetState(p: Pin, reply: Reply<State>): (r: Result<State>)
    ensures IsDetached(p) ==> r == Err(Error(LogicError, GetError + DetachedInstance))
    ensures !IsDetached(p) && reply.Answer? ==> r == Ok(reply.value)
    ensures !IsDetached(p) && reply.Failed? ==> r == Err(Error(RuntimeError, GetError + reply.msg))
  {
    if !p.open then Err(Error(LogicError, GetError + DetachedInstance))
    else match reply
      case Failed(msg) => Err(Error(RuntimeError, GetError + msg))
      case Answer(v) => Ok(v)
  }

  /** Unlike the `gpiod` pin, this one lets a caller write the line while
      the worker is driving it. */
  lemma WritesDuringPwm(p: Pin, s: State)
    requires p.Inv() && PwmStarted(p)
    ensures SetState(p, s, Answer(())) == Outcome(p, Done, [SetValue(s)])
    ensures GetState(p, Answer(s)) == Ok(s)
  {
  }

  /** `period(ns)`: the base setter, then the ticks. */
  function SetPeriod(p: Pin, ns: int): (r: Pin)
    ensures r.base.Valid() && r.base.period >= ns && r.base.pulse == p.base.pulse
    ensures r.ticks.high + r.ticks.low == r.base.period && r.ticks.high == r.base.pulse
    ensures r.(base := p.base, ticks := p.ticks) == p
    ensures p.Inv() ==> r.Inv()
  {
    var b := PinBase.SetPeriod(p.base, ns);
    p.(base := b, ticks := Split(b.period, b.pulse))
  }

  /** `pulse(ns)`: the base setter, then the ticks; both phases are then
      non-negative. */
  function SetPulse(p: Pin, ns: int): (r: Pin)
    requires p.base.Valid()
    ensures r.base == PinBase.SetPulse(p.base, ns)
    ensures r.ticks.high + r.ticks.low == r.base.period && r.ticks.high == r.base.pulse
    ensures r.ticks.high >= 0 && r.ticks.low >= 0
    ensures r.(base := p.base, ticks := p.ticks) == p
    ensures p.Inv() ==> r.Inv()
  {
    var b := PinBase.SetPulse(p.base, ns);
    p.(base := b, ticks := Split(b.period, b.pulse))
  }

  /** `duty_cycle(pc)` calls the virtual `pulse`, so it reaches the
      override above and the worker sees the new ticks. */
  function SetDutyCycle(p: Pin, pc: real): (r: Pin)
    requires p.base.Valid()
    ensures r.base == PinBase.SetDutyCycle(p.base, pc)
    ensures r.ticks.high + r.ticks.low == r.base.period && r.ticks.high == r.base.pulse
    ensures p.Inv() ==> r.Inv()
  {
    SetPulse(p, PinBase.DutyPulse(p.base.period, pc))
  }

  /** After a duty-cycle change the worker's passes take one period each,
      a 0 % cycle never drives the line on and a 100 % cycle never off. */
  lemma DutyCycleDrivesWorker(p: Pin, pc: real, d: int, n: nat)
    requires p.base.Valid()
    ensures var q := SetDutyCycle(p, pc);
      && Run(q.ticks, d, n).deadline == d + n * q.base.period
      && (pc <= 0.0 ==> On !in Run(q.ticks, d, n).writes)
      && (pc >= 100.0 ==> Off !in Run(q.ticks, d, n).writes)
  {
    var q := SetDutyCycle(p, pc);
    RunDeadline(q.ticks, d, n);
    ConstantLevel(q.ticks, d, n);
  }

  /** The completion handler of the queued read: on an error (the line was
      closed) nothing happens and the read is not queued again; otherwise
      a rising edge is `on`, anything else `off`, the callback (if any)
      gets it, and the read is queued again.  Answers the state passed to
      the callback, and whether the read is re-armed. */
  function OnEvent(ev: Reply<int>, hasCallback: bool): (r: (Option<State>, bool))
    ensures r.1 <==> ev.Answer?
    ensures r.0.Some? <==> ev.Answer? && hasCallback
    ensures r.0.Some? ==> (r.0.value == On <==> ev.value == RisingEdgeId)
  {
    match ev
    case Failed(_) => (None, false)
    case Answer(id) =>
      var state := if id == RisingEdgeId then On else Off;
      (if hasCallback then Some(state) else None, true)
  }
}

=== FILE: gpiod_pin.dfy ===
/** The `gpiod` backend pin: like the `generic` one a line of a Linux GPIO
    character device with software PWM, but every mode uses a handle
    request, the mode is checked before the flags (with a separate list of
    accepted flags for input), and reading or writing the line is refused
    while the PWM thread runs.

    Every kernel call's answer is a parameter; the operations return the
    pin afterwards, whether they threw, and the calls they made in order.
 */
module GpiodPin {
  import opened Wrappers
  import opened Flags
  import opened Modes
  import opened Decimal
  import opened LineIo
  import opened SoftPwm
  import PinBase

  const SupportedModes: set<Mode> := {DigitalIn, DigitalOut, Pwm}
  const ValidFlags: Flag := Or(ActiveLow, Or(OpenDrain, OpenSource))

  /** Flags an input request accepts. */
  const InputFlags: seq<Flag> := [ActiveLow]

  const InfoError: string := "Error getting pin info - "
  const HandleError: string := "Error getting pin handle - "
  const SetError: string := "Error setting pin value - "
  const GetError: string := "Error getting pin value - "
  const DetachedMsg: string := "Cannot get/set pin state - Detached instance"
  const PwmMsg: string := "Cannot get/set pin state - PWM in-progress"

  datatype Pin = Pin(
    base: PinBase.Pin,
    open: bool,          // the line handle is open
    worker: Worker,      // `thread_.joinable()`
    ticks: Ticks,
    futureValid: bool)   // `pwm_.valid()`: the header's future, never assigned
  {
    /** What every operation keeps; in particular the stored mode is one
        the kernel reports, and the header's future stays empty. */
    ghost predicate Inv() {
      && base.Valid()
      && ticks == Split(base.period, base.pulse)
      && (worker == Running ==> open)
      && (base.mode == DigitalIn || base.mode == DigitalOut)
      && base.modes == SupportedModes
      && base.valid == ValidFlags
      && !futureValid
    }
  }

  /** `mode()` as the source file defines it: `pwm` while the thread is
      joinable, else the stored mode. */
  function ReportedMode(p: Pin): Mode { if p.worker == Running then Pwm else p.base.mode }

  /** `mode()` as the header defines it, through `pwm_started()`, which
      tests a future nothing assigns. */
  function HeaderMode(p: Pin): Mode { if p.futureValid then Pwm else p.base.mode }

  predicate IsDetached(p: Pin) { !p.open }

  /** The two definitions of `mode()` disagree exactly while PWM runs:
      the header's never reports `pwm`. */
  lemma HeaderModeNeverPwm(p: Pin)
    requires p.Inv()
    ensures HeaderMode(p) != Pwm
    ensures ReportedMode(p) == HeaderMode(p) <==> p.worker == Stopped
  {
  }

  /** `update()`: one line-info query; a failure throws and changes nothing. */
  function Refresh(p: Pin, info: Reply<LineInfo>): (r: Outcome<Pin>)
    ensures r.effects == [QueryLineInfo]
    ensures r.status.Raised? <==> info.Failed?
    ensures r.status.Raised? ==> r.status.error == Error(RuntimeError, InfoError + info.msg)
    ensures r.pin.(base := p.base) == p
    ensures r.pin.base.(name := p.base.name, mode := p.base.mode, flags := p.base.flags, used := p.base.used) == p.base
    ensures r.pin.base.mode == DigitalIn || r.pin.base.mode == DigitalOut || r.pin.base.mode == p.base.mode
  {
    match info
    case Failed(msg) => Outcome(p, Raised(Error(RuntimeError, InfoError + msg)), [QueryLineInfo])
    case Answer(li) => Outcome(p.(base := Update(p.base, li)), Done, [QueryLineInfo])
  }

  /** The constructor: capabilities, default PWM ticks, then `update()`. */
  function New(pos: nat, info: Reply<LineInfo>): (r: Result<Pin>)
    ensures r.Ok? <==> info.Answer?
    ensures r.Err? ==> r.error == Error(RuntimeError, InfoError + info.msg)
    ensures r.Ok? ==> r.value.Inv() && IsDetached(r.value) && r.value.worker == Stopped
    ensures r.Ok? ==> r.value.base.pos == pos && ReportedMode(r.value) != Detached
  {
    var b := PinBase.New(pos).(modes := SupportedModes, valid := ValidFlags);
    var p := Pin(b, false, Stopped, Split(b.period, b.pulse), false);
    match info
    case Failed(msg) => Err(Error(RuntimeError, InfoError + msg))
    case Answer(li) => Ok(p.(base := Update(p.base, li)))
  }

  /** `stop_pwm()`: join the thread only if it is joinable. */
  function StopPwm(p: Pin): (r: (Pin, seq<Effect>))
    ensures r.0.worker == Stopped
    ensures r.1 == (if p.worker == Running then [StopWorker] else [])
    ensures r.0.(worker := p.worker) == p
  {
    if p.worker.Running? then (p.(worker := Stopped), [StopWorker]) else (p, [])
  }

  /** Stopping twice is stopping once. */
  lemma StopPwmIdempotent(p: Pin)
    ensures StopPwm(StopPwm(p).0) == (StopPwm(p).0, [])
  {
  }

  /** `detach()`: on an open line, stop PWM, close, then `update()`. */
  function Detach(p: Pin, info: Reply<LineInfo>): (r: Outcome<Pin>)
    ensures IsDetached(r.pin)
    ensures IsDetached(p) ==> r == Outcome(p, Done, [])
    ensures !IsDetached(p) ==> r.pin.worker == Stopped
    ensures !IsDetached(p) ==> (StopWorker in r.effects <==> p.worker == Running)
    ensures !IsDetached(p) ==> |r.effects| >= 2 && r.effects[|r.effects| - 2..] == [CloseLine, QueryLineInfo]
    ensures forall e :: e in r.effects ==> !IsRequest(e) && e != StartWorker
    ensures r.status.Raised? ==> r.status.error.kind == RuntimeError && info.Failed?
    ensures r.pin.ticks == p.ticks && r.pin.base.period == p.base.period && r.pin.base.pulse == p.base.pulse
    ensures p.Inv() ==> r.pin.Inv()
  {
    if !p.open then Outcome(p, Done, [])
    else
      var (stopped, e1) := StopPwm(p);
      var u := Refresh(stopped.(open := false), info);
      Outcome(u.pin, u.status, e1 + [CloseLine] + u.effects)
  }

  /** A second `detach()` does nothing, whatever the kernel would answer. */
  lemma DetachIdempotent(p: Pin, i1: Reply<LineInfo>, i2: Reply<LineInfo>)
    ensures var d := Detach(p, i1); Detach(d.pin, i2) == Outcome(d.pin, Done, [])
  {
  }

  predicate Switchable(m: Mode) { m == DigitalIn || m == DigitalOut || m == Pwm }

  /** The flags a mode accepts. */
  function AcceptedFlags(m: Mode): seq<Flag>
  {
    if m == DigitalIn then InputFlags else OutputFlags
  }

  /** The `switch` in `mode()` with its `convert` calls: the request bits
      for the mode, or the message of the `invalid_argument` it throws.
      The mode is checked first. */
  function Translate(m: Mode, flags: Flag): (r: Result<set<ReqFlag>>)
    ensures r.Ok? <==> Switchable(m) && Convert(flags, AcceptedFlags(m)).1 == NoFlags
    ensures r.Err? ==> r.error.kind == InvalidArgument
    ensures !Switchable(m) ==> r == Err(Error(InvalidArgument, "Invalid pin mode " + NatToString(ModeValue(m))))
    ensures r.Ok? ==> (ReqInput in r.value <==> m == DigitalIn) && (ReqOutput in r.value <==> m != DigitalIn)
    ensures r.Ok? ==> r.value - {ReqInput, ReqOutput} == Convert(flags, AcceptedFlags(m)).0
  {
    if !Switchable(m) then Err(Error(InvalidArgument, "Invalid pin mode " + NatToString(ModeValue(m))))
    else
      var (bits, rest) := Convert(flags, AcceptedFlags(m));
      if rest != NoFlags then Err(Error(InvalidArgument, "Invalid pin mode flag(s) " + IntToString(ToInt(rest))))
      else Ok((if m == DigitalIn then {ReqInput} else {ReqOutput}) + bits)
  }

  /** An input request takes active-low only: open drain is refused here,
      while the `generic` pin passes it on to the kernel. */
  lemma InputRefusesDriveFlags()
    ensures Translate(DigitalIn, ActiveLow).Ok?
    ensures Translate(DigitalIn, OpenDrain).Err? && Translate(DigitalIn, OpenSource).Err?
    ensures Translate(DigitalOut, OpenDrain).Ok? && Translate(Pwm, OpenSource).Ok?
  {
    assert OrAll(InputFlags) == ActiveLow;
    ConvertLeftover(ActiveLow, InputFlags);
    ConvertLeftover(OpenDrain, InputFlags);
    ConvertLeftover(OpenSource, InputFlags);
    ConvertOutputFlags(OpenDrain);
    ConvertOutputFlags(OpenSource);
  }

  /** The three kernel answers `mode()` depends on. */
  datatype ModeReplies = ModeReplies(
    detachInfo: Reply<LineInfo>,   // update() inside detach()
    request: Reply<()>,            // the handle request
    info: Reply<LineInfo>)         // update() after the request

  /** The part of `mode()` after translation: the handle request,
      `update()`, and the thread for `pwm`. */
  function Attach(q: Pin, m: Mode, fl: set<ReqFlag>, s: State, request: Reply<()>, info: Reply<LineInfo>): (r: Outcome<Pin>)
    requires q.worker == Stopped
    ensures |r.effects| >= 1 && r.effects[0] == HandleRequest(fl, s)
    ensures r.pin.worker == Running <==> m == Pwm && r.status == Done
    ensures r.pin.worker == Running ==> r.effects[|r.effects| - 1] == StartWorker
    ensures r.status == Done ==> !IsDetached(r.pin)
    ensures r.status.Raised? ==> r.status.error.kind == RuntimeError
    ensures forall i :: 1 <= i < |r.effects| ==> !IsRequest(r.effects[i]) && r.effects[i] != CloseLine
    ensures r.pin.ticks == q.ticks && r.pin.futureValid == q.futureValid
    ensures r.pin.base.(name := q.base.name, mode := q.base.mode, flags := q.base.flags, used := q.base.used) == q.base
    ensures r.pin.base.mode == DigitalIn || r.pin.base.mode == DigitalOut || r.pin.base.mode == q.base.mode
  {
    var req := HandleRequest(fl, s);
    match request
    case Failed(msg) => Outcome(q, Raised(Error(RuntimeError, HandleError + msg)), [req])
    case Answer(_) =>
      var u := Refresh(q.(open := true), info);
      var effects := [req] + u.effects;
      if u.status.Raised? then Outcome(u.pin, u.status, effects)
      else if m == Pwm then Outcome(u.pin.(worker := Running), Done, effects + [StartWorker])
      else Outcome(u.pin, Done, effects)
  }

  /** `mode(m, flags, state)`: detach, translate (mode first, then flags),
      request a handle, `update()`, and start the thread for `pwm`. */
  function SetMode(p: Pin, m: Mode, flags: Flag, s: State, rep: ModeReplies): (r: Outcome<Pin>)
    requires p.Inv()
    ensures r.pin.Inv()
    ensures r.pin.worker == Running <==> m == Pwm && r.status == Done
    ensures r.pin.worker == Running ==> |r.effects| >= 1 && r.effects[|r.effects| - 1] == StartWorker
    ensures r.status == Done ==> !IsDetached(r.pin) && Translate(m, flags).Ok?
    ensures r.status == Done ==> HandleRequest(Translate(m, flags).value, s) in r.effects
    ensures Translate(m, flags).Err? ==>
      r.status.Raised? && IsDetached(r.pin) && forall e :: e in r.effects ==> !IsRequest(e)
    ensures Translate(m, flags).Err? && rep.detachInfo.Answer? ==> r.status == Raised(Translate(m, flags).error)
    ensures r.status.Fails(InvalidArgument) ==> IsDetached(r.pin)
    ensures r.pin.ticks == p.ticks && r.pin.base.period == p.base.period && r.pin.base.pulse == p.base.pulse
  {
    var d := Detach(p, rep.detachInfo);
    if d.status.Raised? then d
    else match Translate(m, flags)
      case Err(e) => Outcome(d.pin, Raised(e), d.effects)
      case Ok(fl) =>
        var a := Attach(d.pin, m, fl, s, rep.request, rep.info);
        Outcome(a.pin, a.status, d.effects + a.effects)
  }

  /** With every call succeeding and the kernel reporting the direction
      and flags that were requested, the pin reports the mode and exactly
      the flags asked for. */
  lemma ModeTakesEffect(p: Pin, m: Mode, flags: Flag, s: State, rep: ModeReplies)
    requires p.Inv() && (m == DigitalOut || m == Pwm)
    requires And(flags, Not(ValidFlags)) == NoFlags
    requires rep.detachInfo.Answer? && rep.request.Answer? && rep.info.Answer?
    requires rep.info.value.isOut
    requires rep.info.value.activeLow == (And(flags, ActiveLow) != NoFlags)
    requires rep.info.value.openDrain == (And(flags, OpenDrain) != NoFlags)
    requires rep.info.value.openSource == (And(flags, OpenSource) != NoFlags)
    ensures var r := SetMode(p, m, flags, s, rep);
      && r.status == Done && !IsDetached(r.pin) && ReportedMode(r.pin) == m
      && PinBase.Is(r.pin.base, ActiveLow) == (And(flags, ActiveLow) != NoFlags)
      && PinBase.Is(r.pin.base, OpenDrain) == (And(flags, OpenDrain) != NoFlags)
      && PinBase.Is(r.pin.base, OpenSource) == (And(flags, OpenSource) != NoFlags)
  {
    ConvertOutputFlags(flags);
  }

  /** `throw_detached()` then `throw_pwm()`: the error `set` and `state`
      raise before touching the line, if any. */
  function Guard(p: Pin): (r: Option<Error>)
    ensures r.None? <==> !IsDetached(p) && ReportedMode(p) != Pwm
    ensures IsDetached(p) ==> r == Some(Error(LogicError, DetachedMsg))
    ensures !IsDetached(p) && ReportedMode(p) == Pwm ==> r == Some(Error(LogicError, PwmMsg))
  {
    if !p.open then Some(Error(LogicError, DetachedMsg))
    else if ReportedMode(p) == Pwm then Some(Error(LogicError, PwmMsg))
    else None
  }

  /** `set(state)`. */
  function SetState(p: Pin, s: State, reply: Reply<()>): (r: Outcome<Pin>)
    ensures r.pin == p
    ensures Guard(p).Some? ==> r.status == Raised(Guard(p).value) && r.effects == []
    ensures Guard(p).None? ==> r.effects == [SetValue(s)] && (r.status == Done <==> reply.Answer?)
    ensures Guard(p).None? && reply.Failed? ==> r.status.error == Error(RuntimeError, SetError + reply.msg)
  {
    match Guard(p)
    case Some(e) => Outcome(p, Raised(e), [])
    case None =>
      match reply
      case Failed(msg) => Outcome(p, Raised(Error(RuntimeError, SetError + msg)), [SetValue(s)])
      case Answer(_) => Outcome(p, Done, [SetValue(s)])
  }

  /** `reset()`: `set(off)`. */
  function Reset(p: Pin, reply: Reply<()>): (r: Outcome<Pin>)
    ensures r.pin == p
    ensures Guard(p).Some? ==> r.status.Fails(LogicError) && r.effects == []
    ensures Guard(p).None? ==> r.effects == [SetValue(Off)] && (r.status == Done <==> reply.Answer?)
  {
    SetState(p, Off, reply)
  }

  /** `state()`. */
  function GetState(p: Pin, reply: Reply<State>): (r: Result<State>)
    ensures Guard(p).Some? ==> r == Err(Guard(p).value)
    ensures Guard(p).None? && reply.Answer? ==> r == Ok(reply.value)
    ensures Guard(p).None? && reply.Failed? ==> r == Err(Error(RuntimeError, GetError + reply.msg))
  {
    match Guard(p)
    case Some(e) => Err(e)
    case None =>
      match reply
      case Failed(msg) => Err(Error(RuntimeError, GetError + msg))
      case Answer(v) => Ok(v)
  }

  /** While the thread runs, neither `set` nor `state` reaches the line,
      whatever the kernel would answer. */
  lemma NoLineAccessDuringPwm(p: Pin, s: State, w: Reply<()>, g: Reply<State>)
    requires p.Inv() && p.worker == Running
    ensures SetState(p, s, w) == Outcome(p, Raised(Error(LogicError, PwmMsg)), [])
    ensures GetState(p, g) == Err(Error(LogicError, PwmMsg))
  {
  }

  /** `period(ns)`: the base setter, then the ticks. */
  function SetPeriod(p: Pin, ns: int): (r: Pin)
    ensures r.base.Valid() && r.base.period >= ns && r.base.pulse == p.base.pulse
    ensures r.ticks.high + r.ticks.low == r.base.period && r.ticks.high == r.base.pulse
    ensures r.(base := p.base, ticks := p.ticks) == p
    ensures p.Inv() ==> r.Inv()
  {
    var b := PinBase.SetPeriod(p.base, ns);
    p.(base := b, ticks := Split(b.period, b.pulse))
  }

  /** `set(ns)`, the pulse setter: the base setter, then the ticks. */
  function SetPulse(p: Pin, ns: int): (r: Pin)
    requires p.base.Valid()
    ensures r.base == PinBase.SetPulse(p.base, ns)
    ensures r.ticks.high + r.ticks.low == r.base.period && r.ticks.high == r.base.pulse
    ensures r.ticks.high >= 0 && r.ticks.low >= 0
    ensures r.(base := p.base, ticks := p.ticks) == p
    ensures p.Inv() ==> r.Inv()
  {
    var b := PinBase.SetPulse(p.base, ns);
    p.(base := b, ticks := Split(b.period, b.pulse))
  }
}

=== FILE: library.dfy ===
/** Choosing a backend at run time: the selection string `type[:param]`
    names a shared library `libgpio++-<type>.so`, whose `create_chip` makes
    the chip from `param`, and whose `delete_chip` the returned handle's
    deleter calls before unloading the library.

    The dynamic loader's answers are parameters: whether the library
    loads, whether the symbol is found (failures carry the loader's error
    text), and what `create_chip` does for a parameter.
 */
module Library {
  import opened Wrappers
  import ChipBase
  import LineIo
  import GpiodPin
  import ChipOpen

  /** `find(':')`: the first colon, if any. */
  function FindColon(s: string): (r: Option<nat>)
    ensures r.None? <==> ':' !in s
    ensures r.Some? ==> r.value < |s| && s[r.value] == ':' && ':' !in s[..r.value]
  {
    if s == [] then None
    else if s[0] == ':' then Some(0)
    else match FindColon(s[1..])
      case None => None
      case Some(i) =>
        assert s[..i + 1] == [s[0]] + s[1..][..i];
        Some(i + 1)
  }

  /** The backend type and its parameter: split at the first colon, the
      parameter keeping any later ones; with no colon the parameter is
      empty. */
  function SplitType(s: string): (r: (string, string))
    ensures ':' !in s ==> r == (s, "")
    ensures ':' in s ==> r.0 + [':'] + r.1 == s && ':' !in r.0
  {
    match FindColon(s)
    case None => (s, "")
    case Some(i) =>
      assert s == s[..i] + [':'] + s[i + 1..];
      (s[..i], s[i + 1..])
  }

  /** A type without a colon is recovered from `type:param` whatever the
      parameter holds. */
  lemma SplitTypeRecovers(typ: string, param: string)
    requires ':' !in typ
    ensures SplitType(typ + [':'] + param) == (typ, param)
  {
    var s := typ + [':'] + param;
    assert s[|typ|] == ':';
    var (t, p) := SplitType(s);
    PrefixAtFirstColon(s, t, typ);
    assert s[|typ| + 1..] == param;
    assert t + [':'] + p == s;
    assert s[|t| + 1..] == p;
  }

  /** Two colon-free prefixes followed by a colon in one string are the
      same prefix. */
  lemma PrefixAtFirstColon(s: string, a: string, b: string)
    requires |a| < |s| && |b| < |s|
    requires s[..|a|] == a && s[|a|] == ':' && ':' !in a
    requires s[..|b|] == b && s[|b|] == ':' && ':' !in b
    ensures a == b
  {
  }

  /** A chip's qualified name selects its own backend type and id again. */
  lemma TypeIdSelectsChip<P>(c: ChipBase.Chip<P>)
    requires ':' !in c.typ
    ensures SplitType(ChipBase.TypeId(c)) == (c.typ, c.id)
  {
    if c.id == [] {
    } else {
      SplitTypeRecovers(c.typ, c.id);
    }
  }

  function LibName(typ: string): string { "libgpio++-" + typ + ".so" }

  const NullChip := ": create_chip() returned nullptr"

  /** Calls made on the dynamic loader and on the library, in order. */
  datatype LoaderCall =
    | LoadLibrary(lib: string)   // dlopen
    | FindCreate                 // dlsym "create_chip"
    | CreateChip(param: string)
    | FindDelete                 // dlsym "delete_chip"
    | DeleteChip
    | UnloadLibrary              // dlclose

  /** `unique_chip`: the chip and whether its deleter still holds the
      library handle. */
  datatype UniqueChip<C> = UniqueChip(chip: C, holdsLibrary: bool)

  /** What `get_chip` leaves behind: its result, the calls it made, and
      whether the library is still loaded when it returns. */
  datatype Loading<C> = Loading(result: Result<UniqueChip<C>>, calls: seq<LoaderCall>, loaded: bool)

  /** A failed selection that leaves the library loaded with nothing to
      unload it. */
  predicate Strands<C>(l: Loading<C>) { l.result.Err? && l.loaded }

  /** `get_chip` as written: every failure after a successful load throws
      without unloading the library, because a missing symbol never builds
      the owning handle, a `create_chip` that throws never reaches it, and
      a null chip never reaches its deleter.  `create` answers what
      `create_chip` does for a parameter: throws (`Err`), returns null
      (`Ok(None)`) or returns a chip. */
  function GetChip<C>(s: string, load: Reply<()>, symbol: Reply<()>, create: string -> Result<Option<C>>): (r: Loading<C>)
    ensures |r.calls| >= 1 && r.calls[0] == LoadLibrary(LibName(SplitType(s).0))
    ensures r.result.Ok? <==> load.Answer? && symbol.Answer? && create(SplitType(s).1).Ok? && create(SplitType(s).1).value.Some?
    ensures r.result.Ok? ==> r.result.value == UniqueChip(create(SplitType(s).1).value.value, true) && r.loaded
    ensures load.Failed? ==> r == Loading(Err(Error(InvalidArgument, load.msg)), [LoadLibrary(LibName(SplitType(s).0))], false)
    ensures load.Answer? ==> r.loaded
    ensures load.Answer? && symbol.Failed? ==> r.result == Err(Error(InvalidArgument, symbol.msg))
    ensures load.Answer? && symbol.Answer? && create(SplitType(s).1).Err? ==>
      r.result == Err(create(SplitType(s).1).error)
    ensures load.Answer? && symbol.Answer? && create(SplitType(s).1) == Ok(None) ==>
      r.result == Err(Error(InvalidArgument, LibName(SplitType(s).0) + NullChip))
    ensures CreateChip(SplitType(s).1) in r.calls <==> load.Answer? && symbol.Answer?
  {
    var (typ, param) := SplitType(s);
    var lib := LibName(typ);
    if load.Failed? then Loading(Err(Error(InvalidArgument, load.msg)), [LoadLibrary(lib)], false)
    else if symbol.Failed? then Loading(Err(Error(InvalidArgument, symbol.msg)), [LoadLibrary(lib), FindCreate], true)
    else
      var calls := [LoadLibrary(lib), FindCreate, CreateChip(param)];
      match create(param)
      case Err(e) => Loading(Err(e), calls, true)
      case Ok(None) => Loading(Err(Error(InvalidArgument, lib + NullChip)), calls, true)
      case Ok(Some(chip)) => Loading(Ok(UniqueChip(chip, true)), calls, true)
  }

  /** A library whose `create_chip` returns null stays loaded after
      `get_chip` has thrown. */
  lemma NullChipStrandsLibrary<C>(s: string, create: string -> Result<Option<C>>)
    requires create(SplitType(s).1) == Ok(None)
    ensures Strands(GetChip(s, Answer(()), Answer(()), create))
  {
  }

  /** A library whose `create_chip` throws stays loaded too: the exception
      leaves `get_chip` before any handle owns the library. */
  lemma ThrowingCreateStrandsLibrary<C>(s: string, create: string -> Result<Option<C>>)
    requires create(SplitType(s).1).Err?
    ensures Strands(GetChip(s, Answer(()), Answer(()), create))
  {
  }

  /** The `gpiod` backend's `create_chip`: `new` never yields null, so it
      either returns the chip or passes on what the constructor threw. */
  function CreateGpiod(param: string, opening: Reply<()>, info: Reply<ChipOpen.ChipInfo>,
                       lineInfo: nat -> Reply<LineIo.LineInfo>): (r: Result<Option<ChipBase.Chip<GpiodPin.Pin>>>)
    ensures r.Ok? ==> r.value.Some? && r.value.value.typ == "gpiod" && r.value.value.id == param
    ensures r.Err? <==> ChipOpen.OpenGpiod(param, opening, info, lineInfo).Err?
    ensures !ChipOpen.ValidId(param) ==> r == Err(Error(InvalidArgument, ChipOpen.InvalidId + param))
  {
    match ChipOpen.OpenGpiod(param, opening, info, lineInfo)
    case Err(e) => Err(e)
    case Ok(c) => Ok(Some(c))
  }

  /** Selecting `gpiod` with a malformed chip id: the library loads, the
      chip constructor rejects the id, and the library is left loaded. */
  lemma GpiodBadIdStrandsLibrary(id: string, opening: Reply<()>, info: Reply<ChipOpen.ChipInfo>,
                                 lineInfo: nat -> Reply<LineIo.LineInfo>)
    requires !ChipOpen.ValidId(id)
    ensures var l := GetChip("gpiod:" + id, Answer(()), Answer(()), param => CreateGpiod(param, opening, info, lineInfo));
      Strands(l) && l.result == Err(Error(InvalidArgument, ChipOpen.InvalidId + id))
  {
    var create := param => CreateGpiod(param, opening, info, lineInfo);
    SplitTypeRecovers("gpiod", id);
    assert "gpiod:" + id == "gpiod" + [':'] + id;
    assert create(SplitType("gpiod:" + id).1) == Err(Error(InvalidArgument, ChipOpen.InvalidId + id));
  }

  /** `get_chip` with every failure after the load unloading the library
      before it throws. */
  function GetChipReleasing<C>(s: string, load: Reply<()>, symbol: Reply<()>, create: string -> Result<Option<C>>): (r: Loading<C>)
    ensures r.result == GetChip(s, load, symbol, create).result
    ensures !Strands(r)
    ensures r.loaded <==> r.result.Ok?
    ensures GetChip(s, load, symbol, create).calls <= r.calls
  {
    var l := GetChip(s, load, symbol, create);
    if Strands(l) then Loading(l.result, l.calls + [UnloadLibrary], false) else l
  }

  /** Every failure path of the releasing version unloads exactly what it
      loaded: a load is followed by an unload unless a chip was returned. */
  lemma ReleasingBalancesLoads<C>(s: string, load: Reply<()>, symbol: Reply<()>, create: string -> Result<Option<C>>)
    requires load.Answer?
    ensures var r := GetChipReleasing(s, load, symbol, create);
      r.result.Err? <==> r.calls[|r.calls| - 1] == UnloadLibrary
  {
  }

  /** `chip_deleter`: the library handle it still holds, if any. */
  datatype Deleter = Deleter(holds: bool)

  /** Deleting a chip: with a handle, look up `delete_chip`, call it when
      found, unload the library and drop the handle; without one, nothing. */
  function Delete(d: Deleter, hasDelete: bool): (r: (Deleter, seq<LoaderCall>))
    ensures !r.0.holds
    ensures !d.holds ==> r.1 == []
    ensures d.holds ==> |r.1| >= 2 && r.1[0] == FindDelete && r.1[|r.1| - 1] == UnloadLibrary
    ensures DeleteChip in r.1 <==> d.holds && hasDelete
  {
    if d.holds then
      (Deleter(false), [FindDelete] + (if hasDelete then [DeleteChip] else []) + [UnloadLibrary])
    else (d, [])
  }

  /** A second deletion does nothing: the library is unloaded at most once. */
  lemma DeleteIdempotent(d: Deleter, first: bool, second: bool)
    ensures Delete(Delete(d, first).0, second) == (Delete(d, first).0, [])
  {
  }

  /** A chip handed out by `get_chip` is released by its deleter: the chip
      is deleted when the library exports `delete_chip`, and the library is
      unloaded. */
  lemma ObtainedChipIsReleased<C>(s: string, create: string -> Result<Option<C>>, hasDelete: bool)
    requires create(SplitType(s).1).Ok? && create(SplitType(s).1).value.Some?
    ensures var l := GetChip(s, Answer(()), Answer(()), create);
      var (d, calls) := Delete(Deleter(l.result.value.holdsLibrary), hasDelete);
      UnloadLibrary in calls && (DeleteChip in calls <==> hasDelete) && !d.holds
  {
  }
}

=== FILE: line_io.dfy ===
/** What the two character-device backends (the `generic` line-event one
    and the `gpiod` line-handle one) share: translating portable flags into
    line-request bits, refreshing a pin from the kernel's line info, and the
    vocabulary of backend calls a pin operation issues.

    The request bits and kernel line flags are kernel constants whose
    numeric values do not matter here, so they are symbols.
 */
module LineIo {
  import opened Wrappers
  import opened Flags
  import opened Modes
  import PinBase

  /** `GPIOHANDLE_REQUEST_*` bits. */
  datatype ReqFlag = ReqInput | ReqOutput | ReqActiveLow | ReqOpenDrain | ReqOpenSource

  /** The request bit a portable flag translates to, if any (the `switch`
      in the translation loops; other flags hit `default:`). */
  function RequestBit(f: Flag): Option<ReqFlag>
  {
    if f == ActiveLow then Some(ReqActiveLow)
    else if f == OpenDrain then Some(ReqOpenDrain)
    else if f == OpenSource then Some(ReqOpenSource)
    else None
  }

  /** All bits of a list of flags. */
  function OrAll(fs: seq<Flag>): Flag
  {
    if fs == [] then NoFlags else Or(fs[0], OrAll(fs[1..]))
  }

  /** The request bit contributed by allowed flag `g`: its bit when the
      caller asked for `g` and `g` has one. */
  function StepBits(flags: Flag, g: Flag): (r: set<ReqFlag>)
    ensures r <= {ReqActiveLow, ReqOpenDrain, ReqOpenSource}
  {
    if And(g, flags) != NoFlags && RequestBit(g).Some? then {RequestBit(g).value} else {}
  }

  /** `flags` with allowed flag `g` cleared once it has been seen. */
  function Cleared(flags: Flag, g: Flag): Flag
  {
    if And(g, flags) != NoFlags then And(flags, Not(g)) else flags
  }

  /** The translation loop: for each allowed flag present in `flags`, OR in
      its request bit and clear it from `flags`.  Returns the request bits
      and what is left of `flags`; anything left is an invalid flag. */
  function Convert(flags: Flag, allowed: seq<Flag>): (r: (set<ReqFlag>, Flag))
    ensures r.0 <= {ReqActiveLow, ReqOpenDrain, ReqOpenSource}
  {
    if allowed == [] then ({}, flags)
    else
      var (more, rest) := Convert(Cleared(flags, allowed[0]), allowed[1..]);
      (StepBits(flags, allowed[0]) + more, rest)
  }

  /** What the loop leaves is exactly the bits of `flags` outside every
      allowed flag. */
  lemma {:induction false} ConvertLeftover(flags: Flag, allowed: seq<Flag>)
    ensures Convert(flags, allowed).1 == And(flags, Not(OrAll(allowed)))
  {
    if allowed == [] {
      assert And(flags, Not(NoFlags)) == flags;
    } else {
      var f := allowed[0];
      ConvertLeftover(Cleared(flags, f), allowed[1..]);
      ClearStep(flags, f, OrAll(allowed[1..]));
    }
  }

  lemma ClearStep(flags: Flag, f: Flag, others: Flag)
    ensures And(Cleared(flags, f), Not(others)) == And(flags, Not(Or(f, others)))
  {
    if And(f, flags) != NoFlags {
      ClearPresent(flags, f, others);
    } else {
      ClearAbsent(flags, f, others);
    }
  }

  lemma ClearPresent(flags: Flag, f: Flag, others: Flag)
    ensures And(And(flags, Not(f)), Not(others)) == And(flags, Not(Or(f, others)))
  {
  }

  lemma ClearAbsent(flags: Flag, f: Flag, others: Flag)
    requires And(f, flags) == NoFlags
    ensures And(flags, Not(others)) == And(flags, Not(Or(f, others)))
  {
    assert f & flags == 0;
    ClearStepBits(flags, f, others);
  }

  lemma ClearStepBits(flags: Flag, f: Flag, others: Flag)
    ensures f & flags == 0 ==> flags & !others == flags & !(f | others)
  {
  }

  /** A request bit is produced exactly for the allowed flags the caller
      asked for. */
  lemma {:induction false} ConvertBits(flags: Flag, allowed: seq<Flag>, f: Flag)
    requires f in [ActiveLow, OpenDrain, OpenSource]
    requires forall i :: 0 <= i < |allowed| ==> allowed[i] in AllFlags
    ensures RequestBit(f).value in Convert(flags, allowed).0 <==> f in allowed && And(flags, f) != NoFlags
  {
    if allowed != [] {
      var g, tail := allowed[0], allowed[1..];
      assert forall i :: 0 <= i < |tail| ==> tail[i] in AllFlags by {
        forall i | 0 <= i < |tail| ensures tail[i] in AllFlags {
          assert tail[i] == allowed[i + 1];
        }
      }
      ConvertBits(Cleared(flags, g), tail, f);
      StepFacts(flags, g, f);
      assert allowed == [g] + tail;
    }
  }

  /** One pass of the loop seen from flag `f`: only `g == f` can add its
      bit, and only `g == f` can clear it. */
  lemma StepFacts(flags: Flag, g: Flag, f: Flag)
    requires f in [ActiveLow, OpenDrain, OpenSource] && g in AllFlags
    ensures RequestBit(f).value in StepBits(flags, g) <==> g == f && And(flags, f) != NoFlags
    ensures g != f ==> And(Cleared(flags, g), f) == And(flags, f)
    ensures g == f ==> And(Cleared(flags, g), f) == NoFlags
  {
    if g != f {
      DistinctFlagsDisjoint(g, f);
      ClearOther(flags, g, f);
    } else {
      ClearLeavesNoBit(flags, f);
      assert And(g, flags) == And(flags, f);
    }
  }

  /** Two different flag constants share no bit. */
  lemma DistinctFlagsDisjoint(g: Flag, f: Flag)
    requires g in AllFlags && f in AllFlags && g != f
    ensures And(g, f) == NoFlags
  {
  }

  /** Clearing a flag leaves the bits of a disjoint one as they were. */
  lemma ClearOther(flags: Flag, g: Flag, f: Flag)
    requires And(g, f) == NoFlags
    ensures And(And(flags, Not(g)), f) == And(flags, f)
  {
  }

  /** The flags the line-handle translation accepts for output-like modes. */
  const OutputFlags: seq<Flag> := [ActiveLow, OpenDrain, OpenSource]

  /** Translating against all three output flags accepts a request iff it
      has no bit outside them, and keeps each of them. */
  lemma ConvertOutputFlags(flags: Flag)
    ensures Convert(flags, OutputFlags).1 == NoFlags <==>
      And(flags, Not(Or(ActiveLow, Or(OpenDrain, OpenSource)))) == NoFlags
    ensures (ReqActiveLow in Convert(flags, OutputFlags).0) == (And(flags, ActiveLow) != NoFlags)
    ensures (ReqOpenDrain in Convert(flags, OutputFlags).0) == (And(flags, OpenDrain) != NoFlags)
    ensures (ReqOpenSource in Convert(flags, OutputFlags).0) == (And(flags, OpenSource) != NoFlags)
  {
    assert OutputFlags[1..] == [OpenDrain, OpenSource];
    assert OutputFlags[1..][1..] == [OpenSource];
    assert OutputFlags[1..][1..][1..] == [];
    assert OrAll([OpenSource]) == OpenSource;
    assert OrAll(OutputFlags) == Or(ActiveLow, Or(OpenDrain, OpenSource));
    ConvertLeftover(flags, OutputFlags);
    ConvertBits(flags, OutputFlags, ActiveLow);
    ConvertBits(flags, OutputFlags, OpenDrain);
    ConvertBits(flags, OutputFlags, OpenSource);
  }

  /** `gpioline_info` as the kernel reports it. */
  datatype LineInfo = LineInfo(
    name: string,
    isOut: bool,
    activeLow: bool,
    openDrain: bool,
    openSource: bool,
    kernel: bool)

  /** `update()`: takes name, direction, flags and in-use bit from the
      kernel's line info; period, pulse and capabilities are untouched. */
  function Update(p: PinBase.Pin, info: LineInfo): (r: PinBase.Pin)
    ensures r.name == info.name && r.used == info.kernel
    ensures r.mode == (if info.isOut then DigitalOut else DigitalIn)
    ensures PinBase.Is(r, ActiveLow) == info.activeLow
    ensures PinBase.Is(r, OpenDrain) == info.openDrain
    ensures PinBase.Is(r, OpenSource) == info.openSource
    ensures !PinBase.Is(r, PullUp) && !PinBase.Is(r, PullDown)
    ensures r.(name := p.name, mode := p.mode, flags := p.flags, used := p.used) == p
  {
    var f0 := NoFlags;
    var f1 := if info.activeLow then Or(f0, ActiveLow) else f0;
    var f2 := if info.openDrain then Or(f1, OpenDrain) else f1;
    var f3 := if info.openSource then Or(f2, OpenSource) else f2;
    p.(name := info.name,
       mode := if info.isOut then DigitalOut else DigitalIn,
       flags := f3,
       used := info.kernel)
  }

  /** Calls a pin operation makes on the kernel, in order. */
  datatype Effect =
    | QueryLineInfo                                   // GPIO_GET_LINEINFO_IOCTL
    | EventRequest(handleFlags: set<ReqFlag>)         // GPIO_GET_LINEEVENT_IOCTL, both edges
    | HandleRequest(flags: set<ReqFlag>, initial: State) // GPIO_GET_LINEHANDLE_IOCTL
    | CloseLine                                       // closing the line descriptor
    | ArmRead                                         // queueing the asynchronous event read
    | SetValue(v: State)                              // GPIOHANDLE_SET_LINE_VALUES_IOCTL
    | GetValue                                        // GPIOHANDLE_GET_LINE_VALUES_IOCTL
    | StartWorker                                     // launching the PWM thread
    | StopWorker                                      // raising the stop flag and joining

  predicate IsRequest(e: Effect) { e.EventRequest? || e.HandleRequest? }

  /** A pin operation's result: the pin afterwards (an exception leaves
      whatever was already changed), whether it threw, and the calls made. */
  datatype Outcome<P> = Outcome(pin: P, status: Status, effects: seq<Effect>)
}

=== FILE: local_seed_chain.dfy ===
/** The second `call_chain` variant, in its own header.  It differs from the
    one in the type header only in `get_cid`: the counter is a local
    variable rather than a `static` one, so every call starts again from 0.
    Entries, `remove` and dispatch are those of `CallChain`.
 */
module LocalSeedChain {
  import opened CallChain

  /** `get_cid` with a fresh local seed: the post-increment returns the
      seed's initial value. */
  function GetLocalCid(): (r: Cid)
    ensures r == 0
  {
    var seed: Cid := 0;
    CallChain.GetCid(seed).0
  }

  /** `add(fn)`: always answers id 0; `emplace` registers `fn` only when
      id 0 is still free, and otherwise leaves the chain as it was. */
  function Add<F>(c: Chain<F>, fn: F): (r: (Chain<F>, Cid))
    requires c.Valid()
    ensures r.0.Valid()
    ensures r.1 == 0
    ensures 0 !in Keys(c.entries) ==> ToMap(r.0.entries) == ToMap(c.entries)[0 := fn]
    ensures 0 in Keys(c.entries) ==> r.0 == c
  {
    var id := GetLocalCid();
    EmplaceToMap(c.entries, id, fn);
    (Chain(Emplace(c.entries, id, fn)), id)
  }

  /** Registering two callbacks keeps only the first: both calls return
      id 0, and the second `emplace` finds 0 taken.  Compare
      `CallChain.TwoAddsKeepBoth`. */
  lemma SecondAddIsDropped<F>(f: F, g: F)
    ensures var (c1, id1) := Add(Empty<F>(), f);
      var (c2, id2) := Add(c1, g);
      id1 == id2 == 0 && ToMap(c2.entries) == map[0 := f]
  {
    var (c1, id1) := Add(Empty<F>(), f);
    ToMapKeys(c1.entries);
  }
}

=== FILE: modes.dfy ===
/** Pin modes, their classification tables, digital states and sentinels.

    The older type header has six modes and four classification tables;
    the newer one has three modes (detached, in, out), which only the
    pigpio backend uses.
 */
module Modes {

  /** The six-valued `mode` enum, in declaration order (values 0..5). */
  datatype Mode = Detached | DigitalIn | DigitalOut | AnalogIn | AnalogOut | Pwm

  /** The enum's integer value, as `std::to_string(mode)` prints it. */
  function ModeValue(m: Mode): nat
  {
    match m
    case Detached => 0
    case DigitalIn => 1
    case DigitalOut => 2
    case AnalogIn => 3
    case AnalogOut => 4
    case Pwm => 5
  }

  const DigitalModes: seq<Mode> := [DigitalIn, DigitalOut, Pwm]
  const AnalogModes: seq<Mode> := [AnalogIn, AnalogOut]
  const InputModes: seq<Mode> := [DigitalIn, AnalogIn]
  const OutputModes: seq<Mode> := [DigitalOut, AnalogOut, Pwm]

  /** `std::count` over a table. */
  function Count(table: seq<Mode>, m: Mode): nat
  {
    if table == [] then 0
    else (if table[0] == m then 1 else 0) + Count(table[1..], m)
  }

  /** The library's `find` helper: a table contains a mode iff `std::count`
      of it is nonzero. */
  predicate Find(table: seq<Mode>, m: Mode) { Count(table, m) != 0 }

  lemma {:induction false} FindIsMembership(table: seq<Mode>, m: Mode)
    ensures Find(table, m) <==> m in table
  {
    if table != [] {
      FindIsMembership(table[1..], m);
      assert table == [table[0]] + table[1..];
    }
  }

  predicate IsDigital(m: Mode) { Find(DigitalModes, m) }
  predicate IsAnalog(m: Mode) { Find(AnalogModes, m) }
  predicate IsInput(m: Mode) { Find(InputModes, m) }
  predicate IsOutput(m: Mode) { Find(OutputModes, m) }

  /** Every attached mode is digital or analog but not both; inputs and
      outputs are disjoint; `pwm` is a digital output; `detached` is in no
      table. */
  lemma ClassificationTables(m: Mode)
    ensures m != Detached ==> (IsDigital(m) <==> !IsAnalog(m))
    ensures !(IsInput(m) && IsOutput(m))
    ensures m != Detached ==> (IsInput(m) <==> !IsOutput(m))
    ensures IsDigital(Pwm) && IsOutput(Pwm) && !IsInput(Pwm)
    ensures !IsDigital(Detached) && !IsAnalog(Detached)
    ensures !IsInput(Detached) && !IsOutput(Detached)
  {
    FindIsMembership(DigitalModes, m);
    FindIsMembership(AnalogModes, m);
    FindIsMembership(InputModes, m);
    FindIsMembership(OutputModes, m);
    FindIsMembership(DigitalModes, Pwm);
    FindIsMembership(OutputModes, Pwm);
    FindIsMembership(InputModes, Pwm);
    FindIsMembership(DigitalModes, Detached);
    FindIsMembership(AnalogModes, Detached);
    FindIsMembership(InputModes, Detached);
    FindIsMembership(OutputModes, Detached);
  }

  /** The three-valued `mode` enum of the newer type header. */
  datatype SimpleMode = SDetached | In | Out

  function SimpleModeValue(m: SimpleMode): nat
  {
    match m
    case SDetached => 0
    case In => 1
    case Out => 2
  }

  /** `state` is an enum over `bool`. */
  type State = bool
  const On: State := true
  const Off: State := false

  /** `pos` is `std::size_t`. */
  const PosModulus: int := 0x1_0000_0000_0000_0000
  newtype Pos = n: int | 0 <= n < PosModulus

  /** `npos = static_cast<pos>(-1)`: the conversion wraps -1 to the largest `pos`. */
  function NPos(): (r: Pos)
    ensures r as int == PosModulus - 1
  {
    ((-1) % PosModulus) as Pos
  }
}

=== FILE: pigpio_pin.dfy ===
/** The `pigpio` backend pin: modes `in` and `out` with at most one pull
    resistor, input notifications through a pigpio notification pipe, and
    hardware PWM whose period and pulse are converted to a frequency and a
    duty-cycle step and read back.

    Every pigpio call answers an integer, negative on failure; those
    answers are parameters.  `PI_MAX_DUTYCYCLE_RANGE` is the parameter
    `range`, a positive library constant.
 */
module PigpioPin {
  import opened Wrappers
  import opened Flags
  import opened Modes
  import opened Decimal
  import PinBase

  /** `nsec::period::den / nsec::period::num`. */
  const NsPerSecond: int := 1_000_000_000

  const NotifyPath: string := "/dev/pigpio"

  /** The pigpio calls a pin operation makes, in order. */
  datatype Call =
    | SetPwmRange
    | SetGpioMode(input: bool)
    | SetPull(up: bool)
    | Write(s: State)
    | Read
    | NotifyOpen
    | OpenFile(path: string)
    | NotifyBegin(handle: int, bit: nat)
    | NotifyClose(handle: int)
    | CloseFile
    | SetFrequency(freq: int)
    | GetFrequency
    | SetDuty(cycle: int)
    | GetDuty

  datatype Pin = Pin(
    pos: nat,
    mode: SimpleMode,
    flags: Flag,
    period: int,
    pulse: int,
    handle: int,     // notification handle, -1 when none
    open: bool,      // the notification pipe is open
    armed: bool,     // a read is queued on it
    modes: set<SimpleMode>,
    valid: Flag)
  {
    /** A read is queued only on an open pipe, a pipe is open only with a
        handle, and the period is never negative. */
    ghost predicate Inv() {
      (armed ==> open) && (open ==> handle >= 0) && period >= 0
    }
  }

  predicate IsDetached(p: Pin) { !p.open }

  /** `supports(mode)` and `supports(flag)`. */
  predicate SupportsMode(p: Pin, m: SimpleMode) { m in p.modes }
  predicate SupportsFlag(p: Pin, f: Flag) { And(p.valid, f) != NoFlags }

  datatype Outcome = Outcome(pin: Pin, status: Status, calls: seq<Call>)

  function Fail(p: Pin, msg: string, calls: seq<Call>): Outcome
  {
    Outcome(p, Raised(Error(RuntimeError, msg)), calls)
  }

  // ------------------------------------------------------------ detaching

  /** `detach()`: close the pipe if open, then close the notification
      handle if there is one; the handle is forgotten only if that
      succeeds. */
  function Detach(p: Pin, closeRc: int): (r: Outcome)
    ensures IsDetached(r.pin) && !r.pin.armed
    ensures r.status == Done <==> p.handle < 0 || closeRc >= 0
    ensures r.status.Raised? ==> r.status.error == Error(RuntimeError, "Cannot close notification handle")
    ensures r.status == Done ==> r.pin.handle < 0
    ensures p.handle >= 0 && r.status == Done ==> r.pin.handle == -1
    ensures r.status.Raised? ==> r.pin.handle == p.handle
    ensures NotifyClose(p.handle) in r.calls <==> p.handle >= 0
    ensures CloseFile in r.calls <==> p.open
    ensures r.pin.(open := p.open, armed := p.armed, handle := p.handle) == p
    ensures p.Inv() ==> r.pin.Inv()
  {
    var closed := p.(open := false, armed := false);
    var c1 := if p.open then [CloseFile] else [];
    if p.handle < 0 then Outcome(closed, Done, c1)
    else
      var c2 := c1 + [NotifyClose(p.handle)];
      if closeRc < 0 then Fail(closed, "Cannot close notification handle", c2)
      else Outcome(closed.(handle := -1), Done, c2)
  }

  /** Once a `detach()` has succeeded, another one calls nothing. */
  lemma DetachIdempotent(p: Pin, rc1: int, rc2: int)
    ensures var d := Detach(p, rc1);
      d.status == Done ==> Detach(d.pin, rc2) == Outcome(d.pin, Done, [])
  {
  }

  // ---------------------------------------------------------------- modes

  /** The pigpio answers `mode()` depends on. */
  datatype ModeReplies = ModeReplies(
    closeRc: int,        // gpioNotifyClose, inside detach()
    setModeRc: int,      // gpioSetMode
    pullRc: int,         // gpioSetPullUpDown
    handle: int,         // gpioNotifyOpen
    file: Reply<()>,     // opening the notification pipe
    beginRc: int)        // gpioNotifyBegin

  /** `attach()`: open a notification handle and its pipe, then start
      notifications for this pin's bit and queue a read. */
  function Attach(p: Pin, rep: ModeReplies): (r: Outcome)
    ensures r.status == Done <==> rep.handle >= 0 && rep.file.Answer? && rep.beginRc >= 0
    ensures rep.handle < 0 ==> r.status == Raised(Error(InvalidArgument, "Cannot get notification handle"))
    ensures r.status == Done ==> !IsDetached(r.pin) && r.pin.armed
    ensures rep.handle >= 0 ==> OpenFile(NotifyPath + NatToString(rep.handle)) in r.calls
    ensures |r.calls| >= 1 && r.calls[0] == NotifyOpen
    ensures r.pin.handle == rep.handle
    ensures r.pin.(handle := p.handle, open := p.open, armed := p.armed) == p
    ensures p.Inv() && !p.open ==> r.pin.Inv()
  {
    var q := p.(handle := rep.handle);
    if rep.handle < 0 then Outcome(q, Raised(Error(InvalidArgument, "Cannot get notification handle")), [NotifyOpen])
    else
      var path := NotifyPath + NatToString(rep.handle);
      match rep.file
      case Failed(msg) => Fail(q, "Error opening file " + path + " - " + msg, [NotifyOpen, OpenFile(path)])
      case Answer(_) =>
        var withPipe := q.(open := true);
        var calls := [NotifyOpen, OpenFile(path), NotifyBegin(rep.handle, p.pos)];
        if rep.beginRc < 0 then Fail(withPipe, "Cannot start notification", calls)
        else Outcome(withPipe.(armed := true), Done, calls)
  }

  /** The single flag `mode()` accepts: none, pull-up or pull-down. */
  predicate SingleFlag(f: Flag) { f == NoFlags || f == PullUp || f == PullDown }

  /** `mode(m, flag)`: detach, set the pin direction (only `in` and `out`
      are accepted), set the pull resistor (only a single one, or none),
      record mode and flag, and attach notifications for `in`. */
  function SetMode(p: Pin, m: SimpleMode, f: Flag, rep: ModeReplies): (r: Outcome)
    ensures r.status == Done ==> m != SDetached && SingleFlag(f) && r.pin.mode == m && r.pin.flags == f
    ensures r.status == Done ==> (IsDetached(r.pin) <==> m == Out) && (r.pin.armed <==> m == In)
    ensures m == SDetached || !SingleFlag(f) ==> r.status.Raised? && r.pin.mode == p.mode && r.pin.flags == p.flags
    ensures m == SDetached && Detach(p, rep.closeRc).status == Done ==>
      r.status == Raised(Error(InvalidArgument, "Cannot set pin mode - Invalid mode: 0"))
    ensures m == Out ==> NotifyOpen !in r.calls
    ensures r.pin.period == p.period && r.pin.pulse == p.pulse
    ensures p.Inv() ==> r.pin.Inv()
  {
    var d := Detach(p, rep.closeRc);
    if d.status.Raised? then d
    else if m == SDetached then
      assert NatToString(SimpleModeValue(m)) == "0";
      Outcome(d.pin, Raised(Error(InvalidArgument, "Cannot set pin mode - Invalid mode: " + NatToString(SimpleModeValue(m)))), d.calls)
    else Direction(d.pin, m, f, rep, d.calls)
  }

  /** The direction `switch` of `mode(m, flag)`, for `in` and `out`. */
  function Direction(q: Pin, m: SimpleMode, f: Flag, rep: ModeReplies, calls: seq<Call>): (r: Outcome)
    requires m != SDetached && IsDetached(q) && !q.armed
    ensures |r.calls| > |calls| && r.calls[..|calls| + 1] == calls + [SetGpioMode(m == In)]
    ensures rep.setModeRc < 0 ==> r.status.Fails(RuntimeError) && r.pin == q
    ensures r.status == Done ==> SingleFlag(f) && r.pin.mode == m && r.pin.flags == f
    ensures r.status == Done ==> (IsDetached(r.pin) <==> m == Out) && (r.pin.armed <==> m == In)
    ensures !SingleFlag(f) ==> r.status.Raised? && r.pin == q
    ensures m == Out ==> NotifyOpen !in r.calls[|calls|..]
    ensures r.pin.period == q.period && r.pin.pulse == q.pulse
    ensures q.Inv() ==> r.pin.Inv()
  {
    var c1 := calls + [SetGpioMode(m == In)];
    if rep.setModeRc < 0 then
      Fail(q, if m == In then "Cannot set pin as input" else "Cannot set pin as output", c1)
    else Pull(q, m, f, rep, c1)
  }

  /** The flag `switch` of `mode(m, flag)`. */
  function Pull(q: Pin, m: SimpleMode, f: Flag, rep: ModeReplies, calls: seq<Call>): (r: Outcome)
    requires m != SDetached && IsDetached(q) && !q.armed
    ensures |r.calls| >= |calls| && r.calls[..|calls|] == calls
    ensures r.status == Done ==> SingleFlag(f) && r.pin.mode == m && r.pin.flags == f
    ensures r.status == Done ==> (IsDetached(r.pin) <==> m == Out) && (r.pin.armed <==> m == In)
    ensures !SingleFlag(f) ==> r == Outcome(q, Raised(Error(InvalidArgument, "Cannot set pin mode - Invalid flag: " + IntToString(ToInt(f)))), calls)
    ensures SetPull(true) in r.calls[|calls|..] ==> f == PullUp
    ensures SetPull(false) in r.calls[|calls|..] ==> f == PullDown
    ensures m == Out ==> NotifyOpen !in r.calls[|calls|..]
    ensures r.pin.period == q.period && r.pin.pulse == q.pulse
    ensures q.Inv() ==> r.pin.Inv()
  {
    if f == PullUp || f == PullDown then
      var c2 := calls + [SetPull(f == PullUp)];
      if rep.pullRc < 0 then
        Fail(q, if f == PullUp then "Cannot enable pull-up resistor" else "Cannot enable pull-down resistor", c2)
      else Finish(q, m, f, rep, c2)
    else if f != NoFlags then
      Outcome(q, Raised(Error(InvalidArgument, "Cannot set pin mode - Invalid flag: " + IntToString(ToInt(f)))), calls)
    else Finish(q, m, f, rep, calls)
  }

  /** The end of `mode(m, flag)`: record mode and flag, attach for `in`. */
  function Finish(q: Pin, m: SimpleMode, f: Flag, rep: ModeReplies, calls: seq<Call>): (r: Outcome)
    requires m != SDetached && IsDetached(q) && !q.armed
    ensures r.pin.mode == m && r.pin.flags == f
    ensures r.status == Done ==> (IsDetached(r.pin) <==> m == Out) && (r.pin.armed <==> m == In)
    ensures m == Out ==> r == Outcome(q.(mode := m, flags := f), Done, calls)
    ensures |r.calls| >= |calls| && r.calls[..|calls|] == calls
    ensures forall i :: |calls| <= i < |r.calls| ==> !r.calls[i].SetPull?
    ensures r.pin.period == q.period && r.pin.pulse == q.pulse
    ensures q.Inv() ==> r.pin.Inv()
  {
    var recorded := q.(mode := m, flags := f);
    if m.In? then
      var a := Attach(recorded, rep);
      Outcome(a.pin, a.status, calls + a.calls)
    else Outcome(recorded, Done, calls)
  }

  /** The pin direction is switched before the flag is checked: an invalid
      flag still leaves the hardware pin an output. */
  lemma DirectionSetBeforeFlagCheck(p: Pin, rep: ModeReplies)
    requires p.handle < 0 && rep.setModeRc >= 0
    ensures var r := SetMode(p, Out, Or(PullUp, PullDown), rep);
      r.status.Fails(InvalidArgument) && SetGpioMode(false) in r.calls
  {
    assert Or(PullUp, PullDown) == 0x30;
    var d := Detach(p, rep.closeRc);
    assert SetGpioMode(false) in (d.calls + [SetGpioMode(false)]);
  }

  /** `mode(m, flag, state)`: `mode(m, flag)`, then `set(state)` for `out`. */
  function SetModeState(p: Pin, m: SimpleMode, f: Flag, s: State, rep: ModeReplies, writeRc: int): (r: Outcome)
    ensures SetMode(p, m, f, rep).status.Raised? || m != Out ==> r == SetMode(p, m, f, rep)
    ensures SetMode(p, m, f, rep).status == Done && m == Out ==>
      r.calls == SetMode(p, m, f, rep).calls + [Write(s)] && (r.status == Done <==> writeRc >= 0)
  {
    var first := SetMode(p, m, f, rep);
    if first.status.Raised? || m != Out then first
    else
      var w := Set(first.pin, s, writeRc);
      Outcome(w.pin, w.status, first.calls + w.calls)
  }

  // ---------------------------------------------------------------- state

  /** `set(state)`: one write. */
  function Set(p: Pin, s: State, rc: int): (r: Outcome)
    ensures r.pin == p && r.calls == [Write(s)]
    ensures r.status == Done <==> rc >= 0
    ensures r.status.Raised? ==> r.status.error == Error(RuntimeError, "Cannot set pin state")
  {
    if rc < 0 then Fail(p, "Cannot set pin state", [Write(s)]) else Outcome(p, Done, [Write(s)])
  }

  /** `state()`: `on` iff the read is nonzero; a negative read is an error. */
  function GetState(value: int): (r: Result<State>)
    ensures r.Ok? <==> value >= 0
    ensures r.Ok? ==> (r.value == On <==> value != 0)
    ensures r.Err? ==> r.error == Error(RuntimeError, "Cannot get pin state")
  {
    if value < 0 then Err(Error(RuntimeError, "Cannot get pin state")) else Ok(value != 0)
  }

  // ------------------------------------------------------------------ PWM

  /** `get_period()`: the period of the frequency pigpio reports. */
  function GetPeriod(p: Pin, freq: int): (r: Outcome)
    ensures r.calls == [GetFrequency]
    ensures r.status == Done <==> freq > 0
    ensures freq < 0 ==> r.status == Raised(Error(RuntimeError, "Cannot get PWM frequency"))
    ensures freq == 0 ==> r.status.Fails(DivisionByZero)
    ensures r.status == Done ==> r.pin.period * freq <= NsPerSecond < (r.pin.period + 1) * freq
    ensures r.pin.(period := p.period) == p
    ensures p.Inv() ==> r.pin.Inv()
  {
    if freq < 0 then Fail(p, "Cannot get PWM frequency", [GetFrequency])
    else if freq == 0 then Outcome(p, Raised(Error(DivisionByZero, "PWM frequency 0")), [GetFrequency])
    else Outcome(p.(period := NsPerSecond / freq), Done, [GetFrequency])
  }

  /** `get_pulse()`: only for a nonzero pulse, the pulse of the duty-cycle
      step pigpio reports. */
  function GetPulse(p: Pin, cycle: int, range: int): (r: Outcome)
    requires range >= 1
    ensures p.pulse == 0 ==> r == Outcome(p, Done, [])
    ensures p.pulse != 0 ==> r.calls == [GetDuty] && (r.status == Done <==> cycle >= 0)
    ensures p.pulse != 0 && cycle < 0 ==> r.status == Raised(Error(RuntimeError, "Cannot get PWM duty cycle"))
    ensures p.pulse != 0 && cycle >= 0 && p.period >= 0 ==>
      r.pin.pulse * range <= p.period * cycle < (r.pin.pulse + 1) * range
    ensures r.pin.(pulse := p.pulse) == p
  {
    if p.pulse == 0 then Outcome(p, Done, [])
    else if cycle < 0 then Fail(p, "Cannot get PWM duty cycle", [GetDuty])
    else Outcome(p.(pulse := p.period * cycle / range), Done, [GetDuty])
  }

  /** The frequency `period(ns)` asks for: whole cycles per second of the
      clamped period. */
  function FrequencyFor(period: int): (freq: int)
    requires period >= 1
    ensures freq >= 0 && freq * period <= NsPerSecond < (freq + 1) * period
  {
    NsPerSecond / period
  }

  /** The pigpio answers `period(ns)` depends on. */
  datatype PeriodReplies = PeriodReplies(setRc: int, freq: int, cycle: int)

  /** `period(ns)`: clamp, ask for the matching frequency, then read back
      the period and the pulse. */
  function SetPeriod(p: Pin, ns: int, range: int, rep: PeriodReplies): (r: Outcome)
    requires range >= 1
    ensures |r.calls| >= 1 && r.calls[0] == SetFrequency(FrequencyFor(PinBase.ClampPeriod(ns)))
    ensures rep.setRc < 0 ==> r.status == Raised(Error(RuntimeError, "Cannot set PWM frequency"))
    ensures r.status == Done <==> rep.setRc >= 0 && rep.freq > 0 && (p.pulse == 0 || rep.cycle >= 0)
    ensures rep.setRc >= 0 && rep.freq < 0 ==> r.status == Raised(Error(RuntimeError, "Cannot get PWM frequency"))
    ensures rep.setRc >= 0 && rep.freq == 0 ==> r.status.Fails(DivisionByZero)
    ensures rep.setRc >= 0 && rep.freq > 0 && p.pulse != 0 && rep.cycle < 0 ==>
      r.status == Raised(Error(RuntimeError, "Cannot get PWM duty cycle"))
    ensures r.status == Done ==> rep.setRc >= 0 && rep.freq > 0 && r.pin.period == NsPerSecond / rep.freq
    ensures r.status == Done && p.pulse == 0 ==> r.pin.pulse == 0
    ensures r.status == Done && p.pulse != 0 ==>
      r.pin.pulse * range <= r.pin.period * rep.cycle < (r.pin.pulse + 1) * range
    ensures p.Inv() ==> r.pin.Inv()
  {
    var q := p.(period := PinBase.ClampPeriod(ns));
    var asked := [SetFrequency(FrequencyFor(q.period))];
    if rep.setRc < 0 then Fail(q, "Cannot set PWM frequency", asked)
    else
      var g := GetPeriod(q, rep.freq);
      if g.status.Raised? then Outcome(g.pin, g.status, asked + g.calls)
      else
        var u := GetPulse(g.pin, rep.cycle, range);
        Outcome(u.pin, u.status, asked + g.calls + u.calls)
  }

  /** When pigpio grants the frequency asked for, the period read back is
      never shorter than the one requested (at most one second), and it
      is exact when the request divides a second. */
  lemma ReloadedPeriodNotShorter(p: Pin, ns: int, range: int, rep: PeriodReplies)
    requires range >= 1 && 1 <= ns <= NsPerSecond
    requires rep.setRc >= 0 && rep.freq == FrequencyFor(ns) && rep.cycle >= 0
    ensures var r := SetPeriod(p, ns, range, rep);
      r.status == Done && r.pin.period >= ns
      && (NsPerSecond % ns == 0 ==> r.pin.period == ns)
  {
    var f := FrequencyFor(ns);
    var r := SetPeriod(p, ns, range, rep);
    assert r.pin.period == NsPerSecond / f;
    DivisionRoundTrip(NsPerSecond, ns);
  }

  /** `n / (n / d) >= d` for `1 <= d <= n`, with equality when `d`
      divides `n`. */
  lemma DivisionRoundTrip(n: int, d: int)
    requires 1 <= d <= n
    ensures n / d >= 1 && n / (n / d) >= d
    ensures n % d == 0 ==> n / (n / d) == d
  {
    var f := n / d;
    DivBounds(n, d);
    if f < 1 {
      MulMono(f + 1, 1, d);
    }
    var back := n / f;
    DivBounds(n, f);
    assert d * f == f * d && (d + 1) * f == d * f + f;
    if back < d {
      MulMono(back + 1, d, f);
    }
    if n % d == 0 && back > d {
      MulMono(d + 1, back, f);
    }
  }

  /** Floor division brackets its numerator. */
  lemma DivBounds(num: int, d: int)
    requires d >= 1
    ensures (num / d) * d <= num < (num / d + 1) * d
    ensures num % d == 0 ==> (num / d) * d == num
  {
    assert num == (num / d) * d + num % d;
  }

  lemma MulMono(a: int, b: int, c: int)
    requires a <= b && c >= 0
    ensures a * c <= b * c
  {
  }

  /** The pigpio answers `pulse(ns)` depends on. */
  datatype PulseReplies = PulseReplies(setRc: int, cycle: int)

  /** The duty-cycle step for a pulse within a period. */
  function CycleFor(pulse: int, period: int, range: int): (c: int)
    requires period >= 1 && range >= 1 && 0 <= pulse <= period
    ensures 0 <= c <= range
    ensures c * period <= pulse * range < (c + 1) * period
  {
    MulMono(pulse, period, range);
    FloorDiv(pulse * range, period, range);
    pulse * range / period
  }

  /** Floor division of a numerator of at most `bound * d` by `d`. */
  lemma FloorDiv(num: int, d: int, bound: int)
    requires d >= 1 && 0 <= num <= d * bound
    ensures 0 <= num / d <= bound
    ensures (num / d) * d <= num < (num / d + 1) * d
  {
    var q := num / d;
    assert num == q * d + num % d;
    if q > bound {
      MulMono(bound + 1, q, d);
    }
  }

  /** `pulse(ns)`: clamp into the period, ask for the matching duty-cycle
      step, then read the pulse back.  A zero period (left by a frequency
      above 1 GHz) divides by zero. */
  function SetPulse(p: Pin, ns: int, range: int, rep: PulseReplies): (r: Outcome)
    requires p.Inv() && range >= 1
    ensures p.period == 0 ==> r.status.Fails(DivisionByZero) && r.calls == []
    ensures p.period >= 1 ==> |r.calls| >= 1 && r.calls[0] == SetDuty(CycleFor(PinBase.ClampPulse(ns, p.period), p.period, range))
    ensures p.period >= 1 && rep.setRc < 0 ==> r.status == Raised(Error(RuntimeError, "Cannot set PWM duty cycle"))
    ensures p.period >= 1 ==> (r.status == Done <==> rep.setRc >= 0 && (PinBase.ClampPulse(ns, p.period) == 0 || rep.cycle >= 0))
    ensures p.period >= 1 && rep.setRc >= 0 && PinBase.ClampPulse(ns, p.period) != 0 && rep.cycle < 0 ==>
      r.status == Raised(Error(RuntimeError, "Cannot get PWM duty cycle"))
    ensures r.status == Done && PinBase.ClampPulse(ns, p.period) == 0 ==> r.pin.pulse == 0
    ensures r.status == Done && PinBase.ClampPulse(ns, p.period) != 0 ==>
      r.pin.pulse * range <= p.period * rep.cycle < (r.pin.pulse + 1) * range
    ensures r.pin.period == p.period && r.pin.Inv()
  {
    var q := p.(pulse := PinBase.ClampPulse(ns, p.period));
    if q.period == 0 then Outcome(q, Raised(Error(DivisionByZero, "PWM period 0")), [])
    else
      var asked := [SetDuty(CycleFor(q.pulse, q.period, range))];
      if rep.setRc < 0 then Fail(q, "Cannot set PWM duty cycle", asked)
      else
        var u := GetPulse(q, rep.cycle, range);
        Outcome(u.pin, u.status, asked + u.calls)
  }

  /** When pigpio reports back the step it was given, the pulse read back
      is at most the requested (clamped) one, and short of it by less than
      one step (`period / range`) plus one nanosecond. */
  lemma PulseRoundTrip(p: Pin, ns: int, range: int, rep: PulseReplies)
    requires p.Inv() && p.period >= 1 && range >= 1 && 0 <= ns <= p.period
    requires rep.setRc >= 0 && rep.cycle == CycleFor(ns, p.period, range)
    ensures var r := SetPulse(p, ns, range, rep);
      && r.status == Done
      && r.pin.pulse <= ns
      && (ns - r.pin.pulse) * range < p.period + range
      && (ns == 0 ==> r.pin.pulse == 0)
  {
    var r := SetPulse(p, ns, range, rep);
    if ns != 0 {
      PulseArith(ns, p.period, range, rep.cycle, r.pin.pulse);
    }
  }

  /** The arithmetic of the round trip: a step rounded down from the pulse,
      and a pulse rounded down from the step. */
  lemma PulseArith(ns: int, t: int, range: int, c: int, back: int)
    requires t >= 1 && range >= 1 && 0 <= ns
    requires c * t <= ns * range < (c + 1) * t
    requires back * range <= t * c < (back + 1) * range
    ensures back <= ns && (ns - back) * range < t + range
  {
    if back > ns {
      MulMono(ns + 1, back, range);
    }
    assert (c + 1) * t == c * t + t;
    assert (back + 1) * range == back * range + range;
    assert (ns - back) * range == ns * range - back * range;
  }

  /** The constructor: set the PWM range, then read the period. */
  function New(pos: nat, rangeRc: int, freq: int): (r: Result<Pin>)
    ensures r.Ok? <==> rangeRc >= 0 && freq > 0
    ensures rangeRc < 0 ==> r == Err(Error(RuntimeError, "Cannot set PWM range"))
    ensures rangeRc >= 0 && freq < 0 ==> r == Err(Error(RuntimeError, "Cannot get PWM frequency"))
    ensures rangeRc >= 0 && freq == 0 ==> r.Err? && r.error.kind == DivisionByZero
    ensures r.Ok? ==> r.value.Inv() && IsDetached(r.value) && r.value.handle == -1
    ensures r.Ok? ==> r.value.pos == pos && r.value.mode == SDetached && r.value.pulse == 0
    ensures r.Ok? ==> r.value.period * freq <= NsPerSecond < (r.value.period + 1) * freq
    ensures r.Ok? ==> r.value.modes == {In, Out} && r.value.valid == Or(PullUp, PullDown)
  {
    if rangeRc < 0 then Err(Error(RuntimeError, "Cannot set PWM range"))
    else
      var p := Pin(pos, SDetached, NoFlags, PinBase.DefaultPeriod, 0, -1, false, false, {In, Out}, Or(PullUp, PullDown));
      var g := GetPeriod(p, freq);
      if g.status.Raised? then Err(g.status.error) else Ok(g.pin)
  }

  /** A new pin advertises exactly what `mode()` accepts: the modes `in`
      and `out`, and the pull resistors as its flags. */
  lemma NewSupportsWhatModeAccepts(pos: nat, rangeRc: int, freq: int, m: SimpleMode, f: Flag)
    requires New(pos, rangeRc, freq).Ok?
    requires f in AllFlags
    ensures var p := New(pos, rangeRc, freq).value;
      && (SupportsMode(p, m) <==> m != SDetached)
      && (SupportsFlag(p, f) <==> f != NoFlags && SingleFlag(f))
  {
    ConstantsAreDisjointBits();
  }
}

=== FILE: pin_base.dfy ===
/** `pin_base`: the state and behaviour every backend pin shares — mode and
    flag bookkeeping, the mode classification queries, and the PWM period,
    pulse and duty-cycle arithmetic.

    Durations are nanosecond counts.  The duty cycle is a `double` percent
    in the source and a `real` here; the `+ 0.5` rounding is modelled
    exactly, IEEE-754 rounding is not.
 */
module PinBase {
  import opened Modes
  import opened Flags

  /** Default PWM period: 100 ms. */
  const DefaultPeriod: int := 100_000_000

  datatype Pin = Pin(
    pos: nat,
    name: string,
    mode: Mode,
    modes: set<Mode>,
    flags: Flag,
    valid: Flag,
    used: bool,
    period: int,
    pulse: int)
  {
    /** The period never drops below one tick (every setter keeps this). */
    ghost predicate Valid() { period >= 1 }

    /** `0 <= pulse <= period`: true initially and after every pulse or
        duty-cycle change, but a later shorter period can break it. */
    ghost predicate PulseInPeriod() { 0 <= pulse <= period }
  }

  /** A freshly constructed pin. */
  function New(pos: nat): (p: Pin)
    ensures p.Valid() && p.PulseInPeriod()
    ensures p.pos == pos && p.mode == Detached && p.flags == NoFlags && p.valid == NoFlags
    ensures !p.used && p.modes == {}
    ensures p.period == DefaultPeriod && p.pulse == 0
  {
    Pin(pos, "", Detached, {}, NoFlags, NoFlags, false, DefaultPeriod, 0)
  }

  // ---------------------------------------------------------------- modes

  /** `mode(m, f, s)`: records mode and flags; the state is not used. */
  function SetMode(p: Pin, m: Mode, f: Flag, s: State): (r: Pin)
    ensures r.mode == m && r.flags == f
    ensures r.(mode := p.mode, flags := p.flags) == p
  {
    p.(mode := m, flags := f)
  }

  /** `mode(m, f)`: state 0. */
  function SetModeFlags(p: Pin, m: Mode, f: Flag): Pin { SetMode(p, m, f, Off) }

  /** `mode(m, s)`: no flags. */
  function SetModeState(p: Pin, m: Mode, s: State): Pin { SetMode(p, m, NoFlags, s) }

  /** `mode(m)`: no flags, via `mode(m, f)`. */
  function SetModeOnly(p: Pin, m: Mode): Pin { SetModeFlags(p, m, NoFlags) }

  /** The four overloads collapse to the three-argument one, and that one
      ignores the state, so all of them agree whenever mode and flags do. */
  lemma ModeOverloadsAgree(p: Pin, m: Mode, f: Flag, s: State, s': State)
    ensures SetMode(p, m, f, s) == SetMode(p, m, f, s')
    ensures SetModeFlags(p, m, f) == SetMode(p, m, f, s)
    ensures SetModeState(p, m, s) == SetMode(p, m, NoFlags, s')
    ensures SetModeOnly(p, m) == SetModeState(p, m, s)
    ensures SetModeOnly(p, m).period == p.period && SetModeOnly(p, m).pulse == p.pulse
  {
  }

  predicate Digital(p: Pin) { IsDigital(p.mode) }
  predicate Analog(p: Pin) { IsAnalog(p.mode) }
  predicate Input(p: Pin) { IsInput(p.mode) }
  predicate Output(p: Pin) { IsOutput(p.mode) }

  /** The classification queries are membership of the stored mode in the
      corresponding table. */
  lemma ClassificationIsMembership(p: Pin)
    ensures Digital(p) <==> p.mode in DigitalModes
    ensures Analog(p) <==> p.mode in AnalogModes
    ensures Input(p) <==> p.mode in InputModes
    ensures Output(p) <==> p.mode in OutputModes
  {
    FindIsMembership(DigitalModes, p.mode);
    FindIsMembership(AnalogModes, p.mode);
    FindIsMembership(InputModes, p.mode);
    FindIsMembership(OutputModes, p.mode);
  }

  /** `supports(mode)`: `modes_.count(mode)`. */
  predicate SupportsMode(p: Pin, m: Mode) { m in p.modes }

  /** `is(flag)`: some bit of `flag` is among the pin's flags. */
  predicate Is(p: Pin, f: Flag) { And(p.flags, f) != NoFlags }

  /** `supports(flag)`: some bit of `flag` is among the valid flags. */
  predicate SupportsFlag(p: Pin, f: Flag) { And(p.valid, f) != NoFlags }

  /** After `mode(m, f, s)` the pin reports exactly the flags of `f` and
      still supports what it supported before. */
  lemma QueriesAfterSetMode(p: Pin, m: Mode, f: Flag, s: State, g: Flag)
    ensures Is(SetMode(p, m, f, s), g) <==> And(f, g) != NoFlags
    ensures Is(SetMode(p, m, f, s), f) <==> f != NoFlags
    ensures SupportsFlag(SetMode(p, m, f, s), g) == SupportsFlag(p, g)
    ensures SupportsMode(SetMode(p, m, f, s), m) == (m in p.modes)
  {
  }

  // ------------------------------------------------------ period and pulse

  /** `std::max(period, 1ns)`: the smallest value that is at least 1 and at
      least the request. */
  function ClampPeriod(ns: int): (r: int)
    ensures r >= 1 && r >= ns
    ensures r == ns || r == 1
  {
    if ns < 1 then 1 else ns
  }

  function Dist(a: int, b: int): nat { if a < b then b - a else a - b }

  /** `std::min(std::max(pulse, 0ns), period)`: the point of `[0, period]`
      nearest to the request. */
  function ClampPulse(ns: int, period: int): (r: int)
    requires period >= 0
    ensures 0 <= r <= period
    ensures forall q :: 0 <= q <= period ==> Dist(r, ns) <= Dist(q, ns)
    ensures 0 <= ns <= period ==> r == ns
  {
    var lower := if ns < 0 then 0 else ns;
    if lower < period then lower else period
  }

  /** `period(ns)`: stores the clamped period and leaves the pulse alone. */
  function SetPeriod(p: Pin, ns: int): (r: Pin)
    ensures r.Valid()
    ensures r.period >= ns && (r.period == ns || r.period == 1)
    ensures r.pulse == p.pulse
    ensures r.(period := p.period) == p
  {
    p.(period := ClampPeriod(ns))
  }

  /** `pulse(ns)`: stores the request clamped into the current period. */
  function SetPulse(p: Pin, ns: int): (r: Pin)
    requires p.Valid()
    ensures r.Valid() && r.PulseInPeriod()
    ensures 0 <= ns <= p.period ==> r.pulse == ns
    ensures ns < 0 ==> r.pulse == 0
    ensures ns > p.period ==> r.pulse == p.period
    ensures r.(pulse := p.pulse) == p
  {
    p.(pulse := ClampPulse(ns, p.period))
  }

  /** Because `period(ns)` does not re-clamp the pulse, the pulse can be
      longer than the period: set a 1000 ns pulse, then a 10 ns period. */
  lemma ShorterPeriodLeavesLongerPulse()
    ensures var p := SetPeriod(SetPulse(New(0), 1000), 10);
      p.Valid() && !p.PulseInPeriod() && p.pulse == 1000 && p.period == 10
  {
  }

  // ------------------------------------------------------------ duty cycle

  /** `std::max(0.0, std::min(pc, 100.0))`. */
  function ClampPercent(pc: real): (r: real)
    ensures 0.0 <= r <= 100.0
    ensures 0.0 <= pc <= 100.0 ==> r == pc
  {
    var upper := if pc < 100.0 then pc else 100.0;
    if 0.0 < upper then upper else 0.0
  }

  /** `static_cast` of a `double` to an integer: truncation toward zero. */
  function Trunc(x: real): (r: int)
    ensures x >= 0.0 ==> r as real <= x < r as real + 1.0
    ensures x < 0.0 ==> r as real - 1.0 < x <= r as real
  {
    if x >= 0.0 then x.Floor else -((-x).Floor)
  }

  /** The pulse `duty_cycle(pc)` asks for, before `pulse` clamps it:
      `period * pc / 100`, rounded half up. */
  function DutyPulse(period: int, pc: real): (n: int)
    requires period >= 1
    ensures 0 <= n <= period
    ensures n as real <= period as real * ClampPercent(pc) / 100.0 + 0.5 < n as real + 1.0
  {
    var x := period as real * ClampPercent(pc) / 100.0;
    assert 0.0 <= x <= period as real;
    Trunc(x + 0.5)
  }

  /** `duty_cycle(pc)`: sets the pulse to `pc` percent of the period. */
  function SetDutyCycle(p: Pin, pc: real): (r: Pin)
    requires p.Valid()
    ensures r.Valid() && r.PulseInPeriod()
    ensures r.(pulse := p.pulse) == p
    ensures pc <= 0.0 ==> r.pulse == 0
    ensures pc >= 100.0 ==> r.pulse == p.period
    ensures r.pulse as real <= p.period as real * ClampPercent(pc) / 100.0 + 0.5 < r.pulse as real + 1.0
  {
    SetPulse(p, DutyPulse(p.period, pc))
  }

  /** `duty_cycle()`: `100 * pulse / period`, never a division by zero. */
  function DutyCycle(p: Pin): (r: real)
    requires p.Valid()
    ensures p.PulseInPeriod() ==> 0.0 <= r <= 100.0
    ensures p.pulse == 0 ==> r == 0.0
    ensures p.pulse == p.period ==> r == 100.0
  {
    100.0 * p.pulse as real / p.period as real
  }

  /** With a 1 ms period a 25 % duty cycle is a 250 us pulse. */
  lemma QuarterDutyCycleExample()
    ensures SetDutyCycle(SetPeriod(New(0), 1_000_000), 25.0).pulse == 250_000
  {
    var p := SetPeriod(New(0), 1_000_000);
    assert p.period as real * 25.0 / 100.0 + 0.5 == 250_000.5;
  }

  /** Reading the duty cycle back after setting it is off by at most half a
      tick, i.e. `50 / period` percent. */
  lemma DutyCycleRoundTrip(p: Pin, pc: real)
    requires p.Valid()
    requires 0.0 <= pc <= 100.0
    ensures var back := DutyCycle(SetDutyCycle(p, pc));
      -50.0 / p.period as real <= back - pc <= 50.0 / p.period as real
  {
    var t := p.period as real;
    var x := t * pc / 100.0;
    var n := DutyPulse(p.period, pc);
    assert n == Trunc(x + 0.5);
    var back := DutyCycle(SetDutyCycle(p, pc));
    assert back == 100.0 * n as real / t;
    ScaledDifference(n as real, pc, t);
    HalfTickBound(n as real - x, t);
  }

  /** The percentage of a tick count differs from `pc` by the tick error
      scaled to percent. */
  lemma ScaledDifference(n: real, pc: real, t: real)
    requires t >= 1.0
    ensures 100.0 * n / t - pc == 100.0 * (n - t * pc / 100.0) / t
  {
    assert 100.0 * (t * pc / 100.0) / t == pc;
  }

  lemma HalfTickBound(d: real, t: real)
    requires t >= 1.0
    requires -0.5 < d <= 0.5
    ensures -50.0 / t <= 100.0 * d / t <= 50.0 / t
  {
    assert 100.0 * d <= 50.0;
    assert -50.0 < 100.0 * d;
  }
}

=== FILE: pin_iface.dfy ===
/** The pin interface header of the older API: a pin that knows its
    backend type name, with mode and flag bookkeeping but no PWM.  Its
    three-argument `mode` takes an integer `value` rather than a `state`.
 */
module PinIface {
  import opened Modes
  import opened Flags
  import opened Decimal

  datatype Pin = Pin(
    typ: string,
    pos: nat,
    name: string,
    modes: set<Mode>,
    mode: Mode,
    flags: Flag,
    used: bool)

  /** The protected constructor: type and position given, the rest default. */
  function New(typ: string, pos: nat): (p: Pin)
    ensures p.typ == typ && p.pos == pos
    ensures p.mode == Detached && p.flags == NoFlags && !p.used
  {
    Pin(typ, pos, "", {}, Detached, NoFlags, false)
  }

  const PinTag: string := ".pin:"

  /** `type_id()`: the type name, ".pin:", then the position in decimal. */
  function TypeId(p: Pin): (s: string)
    ensures |s| > |p.typ| + |PinTag|
    ensures s[..|p.typ|] == p.typ && s[|p.typ|..|p.typ| + |PinTag|] == PinTag
    ensures AllDigits(s[|p.typ| + |PinTag|..])
  {
    p.typ + PinTag + NatToString(p.pos)
  }

  /** The identifier gives the position back: the text after the tag reads
      as the position, so pins of one type have distinct identifiers. */
  lemma TypeIdNamesPosition(p: Pin, q: Pin)
    ensures ParseDigits(TypeId(p)[|p.typ| + |PinTag|..]) == p.pos
    ensures p.typ == q.typ && TypeId(p) == TypeId(q) ==> p.pos == q.pos
  {
    assert TypeId(p)[|p.typ| + |PinTag|..] == NatToString(p.pos);
    ParseNatToString(p.pos);
    if p.typ == q.typ && TypeId(p) == TypeId(q) {
      assert TypeId(q)[|q.typ| + |PinTag|..] == NatToString(q.pos);
      NatToStringInjective(p.pos, q.pos);
    }
  }

  /** `mode(m, f, value)`: records mode and flags only. */
  function SetMode(p: Pin, m: Mode, f: Flag, value: int): (r: Pin)
    ensures r.mode == m && r.flags == f
    ensures r.(mode := p.mode, flags := p.flags) == p
  {
    p.(mode := m, flags := f)
  }

  function SetModeFlags(p: Pin, m: Mode, f: Flag): Pin { SetMode(p, m, f, 0) }
  function SetModeValue(p: Pin, m: Mode, value: int): Pin { SetMode(p, m, NoFlags, value) }
  function SetModeOnly(p: Pin, m: Mode): Pin { SetModeFlags(p, m, NoFlags) }

  /** Flags default to 0 and value to 0, and the value is never used. */
  lemma ModeOverloadsAgree(p: Pin, m: Mode, f: Flag, v: int, v': int)
    ensures SetMode(p, m, f, v) == SetMode(p, m, f, v')
    ensures SetModeFlags(p, m, f) == SetMode(p, m, f, v)
    ensures SetModeValue(p, m, v) == SetMode(p, m, NoFlags, v')
    ensures SetModeOnly(p, m) == SetModeValue(p, m, v)
  {
  }

  predicate Digital(p: Pin) { IsDigital(p.mode) }
  predicate Analog(p: Pin) { IsAnalog(p.mode) }
  predicate Input(p: Pin) { IsInput(p.mode) }
  predicate Output(p: Pin) { IsOutput(p.mode) }

  /** `supports(m)`: `std::count` of `m` in the mode set is nonzero. */
  predicate Supports(p: Pin, m: Mode) { m in p.modes }

  /** `is(flag)`. */
  predicate Is(p: Pin, f: Flag) { And(p.flags, f) != NoFlags }

  /** The classification queries are table membership of the stored mode,
      and a fresh pin is in none of the tables. */
  lemma QueriesAreMembership(p: Pin, typ: string, pos: nat)
    ensures Digital(p) <==> p.mode in DigitalModes
    ensures Analog(p) <==> p.mode in AnalogModes
    ensures Input(p) <==> p.mode in InputModes
    ensures Output(p) <==> p.mode in OutputModes
    ensures var q := New(typ, pos);
      !Digital(q) && !Analog(q) && !Input(q) && !Output(q) && !Is(q, 0xFFFF_FFFF)
  {
    FindIsMembership(DigitalModes, p.mode);
    FindIsMembership(AnalogModes, p.mode);
    FindIsMembership(InputModes, p.mode);
    FindIsMembership(OutputModes, p.mode);
    ClassificationTables(Detached);
  }
}

=== FILE: soft_pwm.dfy ===
/** The software PWM both character-device pins run on a worker thread:
    the tick split the period and pulse setters maintain, and the body of
    the worker loop.

    The loop sleeps until an absolute deadline, so time is modelled only as
    that deadline, in nanoseconds; the two reads of the stop flag are
    parameters, because another thread sets it.
 */
module SoftPwm {
  import opened Modes

  /** Whether a worker thread is running (`pwm_.valid()` / `joinable()`). */
  datatype Worker = Stopped | Running

  /** `high_ticks_` and `low_ticks_`. */
  datatype Ticks = Ticks(high: int, low: int)

  /** What the period and pulse setters store: the pulse, and the rest of
      the period. */
  function Split(period: int, pulse: int): (t: Ticks)
    ensures t.high + t.low == period && t.high == pulse
    ensures t.low < 0 <==> pulse > period
  {
    Ticks(pulse, period - pulse)
  }

  /** A pulse inside a period gives two non-negative phases. */
  lemma SplitInPeriod(period: int, pulse: int)
    requires 0 <= pulse <= period
    ensures Split(period, pulse).high >= 0 && Split(period, pulse).low >= 0
  {
  }

  /** One pass of the worker loop: the levels written, the deadline reached,
      and whether the loop exits. */
  datatype Iteration = Iteration(writes: seq<State>, deadline: int, exit: bool)

  /** A phase writes its level and advances the deadline only when its tick
      count is nonzero. */
  function Phase(ticks: int, level: State, deadline: int): (r: (seq<State>, int))
  {
    if ticks != 0 then ([level], deadline + ticks) else ([], deadline)
  }

  /** The loop body: high phase, stop check, low phase, stop check. */
  function Pass(t: Ticks, deadline: int, stopAfterHigh: bool, stopAfterLow: bool): (r: Iteration)
    ensures (On in r.writes) <==> t.high != 0
    ensures stopAfterHigh ==> r.exit && Off !in r.writes && r.deadline == deadline + t.high
    ensures !stopAfterHigh ==> (Off in r.writes <==> t.low != 0)
    ensures !stopAfterHigh ==> r.exit == stopAfterLow && r.deadline == deadline + t.high + t.low
    ensures forall i, j :: 0 <= i < j < |r.writes| ==> r.writes[i] == On && r.writes[j] == Off
  {
    var (w1, d1) := Phase(t.high, On, deadline);
    if stopAfterHigh then Iteration(w1, d1, true)
    else
      var (w2, d2) := Phase(t.low, Off, d1);
      Iteration(w1 + w2, d2, stopAfterLow)
  }

  /** `n` passes in which the stop flag is never seen set. */
  function Run(t: Ticks, deadline: int, n: nat): (r: Iteration)
    ensures !r.exit
    decreases n
  {
    if n == 0 then Iteration([], deadline, false)
    else
      var s := Pass(t, deadline, false, false);
      var rest := Run(t, s.deadline, n - 1);
      Iteration(s.writes + rest.writes, rest.deadline, false)
  }

  /** Every pass advances the deadline by exactly one period, whether or not
      a phase was skipped. */
  lemma {:induction false} RunDeadline(t: Ticks, d: int, n: nat)
    ensures Run(t, d, n).deadline == d + n * (t.high + t.low)
    decreases n
  {
    if n > 0 {
      RunDeadline(t, d + t.high + t.low, n - 1);
      assert (n - 1) * (t.high + t.low) + (t.high + t.low) == n * (t.high + t.low);
    }
  }

  /** With the ticks a setter stores, `n` passes take `n` periods. */
  lemma PeriodicDeadline(period: int, pulse: int, d: int, n: nat)
    ensures Run(Split(period, pulse), d, n).deadline == d + n * period
  {
    RunDeadline(Split(period, pulse), d, n);
  }

  /** With both phases nonzero the line sees a square wave: on, off, on,
      off, ... */
  lemma {:induction false} SquareWave(t: Ticks, d: int, n: nat)
    requires t.high != 0 && t.low != 0
    ensures |Run(t, d, n).writes| == 2 * n
    ensures forall i :: 0 <= i < |Run(t, d, n).writes| ==> Run(t, d, n).writes[i] == (i % 2 == 0)
    decreases n
  {
    if n > 0 {
      var s := Pass(t, d, false, false);
      assert s.writes == [On, Off];
      SquareWave(t, s.deadline, n - 1);
      var w := Run(t, d, n).writes;
      var rest := Run(t, s.deadline, n - 1).writes;
      assert w == [On, Off] + rest;
      forall i | 0 <= i < |w|
        ensures w[i] == (i % 2 == 0)
      {
        if i >= 2 {
          assert w[i] == rest[i - 2];
        }
      }
    }
  }

  /** A zero pulse never drives the line on, and a pulse equal to the
      period never drives it off. */
  lemma {:induction false} ConstantLevel(t: Ticks, d: int, n: nat)
    ensures t.high == 0 ==> On !in Run(t, d, n).writes
    ensures t.low == 0 ==> Off !in Run(t, d, n).writes
    decreases n
  {
    if n > 0 {
      var s := Pass(t, d, false, false);
      ConstantLevel(t, s.deadline, n - 1);
    }
  }

  /** After the period is shortened below the pulse, the low phase is
      negative: the loop still writes off, and moves the deadline back. */
  lemma NegativeLowPhase()
    ensures var t := Split(10, 1000);
      t.low == -990 && Pass(t, 0, false, false) == Iteration([On, Off], 10, false)
  {
  }
}

=== FILE: wrappers.dfy ===
/** Failure-carrying results shared by every module of the model.

    The library reports failures as C++ exceptions.  An exception does not
    roll back what the member already did (a rejected `mode` request leaves
    the pin detached), so operations that mutate a pin return the new pin
    together with a `Status`, and pure queries return a `Result`.
 */
module Wrappers {

  /** The exception classes the library throws. */
  datatype ErrorKind =
    | InvalidArgument   // std::invalid_argument
    | LogicError        // std::logic_error
    | RuntimeError      // std::runtime_error
    | OutOfRange        // std::out_of_range
    | DivisionByZero    // an integer division by zero (undefined behaviour in C++)

  datatype Error = Error(kind: ErrorKind, msg: string)

  datatype Option<+T> = None | Some(value: T)

  datatype Result<+T> = Ok(value: T) | Err(error: Error) {
    predicate IsFailure() { Err? }

    function PropagateFailure<U>(): Result<U>
      requires Err?
    {
      Err(error)
    }

    function Extract(): T
      requires Ok?
    {
      value
    }
  }

  /** Outcome of a mutating member: it returned normally or it threw. */
  datatype Status = Done | Raised(error: Error) {
    predicate Fails(kind: ErrorKind) { Raised? && error.kind == kind }
  }

  /** What a call into the system answers: a value, or an error with its
      message (an `asio::error_code`). */
  datatype Reply<T> = Answer(value: T) | Failed(msg: string)
}
